=== FILE: README.md ===
# Train station booking core, in Dafny

This project models the booking and availability core of a Django REST
framework backend for a train station. Staff define stations, routes,
trains and journeys. A journey is one run of a train on a route, with a
crew. Customers place orders, and each order books one or more tickets.
A ticket is a (car, seat) place on a journey.

The model covers these rules:

- A journey must arrive strictly after it departs.
- A ticket's car must lie in `1..cars` of the journey's train, and its seat in `1..seats_in_car`.
- No two tickets may hold the same seat of the same journey.
- An order and all of its tickets are written in one transaction: either all of them are stored, or none.
- The journey listing filters by route, day, train and crew. It annotates each journey with `tickets_available`, the train's capacity less the tickets sold.

The model is split into these modules:

- `Results` (`results.dfy`): `Option` and `Result`. They stand for Python's `None` returns and raised exceptions.
- `Text` (`text.dfy`):
  - `int(str)`;
  - `str(int)`;
  - `str.split`, with its inverse `join`.
- `Sorting` (`sorting.dfy`): the query-set operations `filter`, `order_by` and `distinct`, on sequences.
- `Models` (`models.dfy`): `train_station/models.py`.
  - The two validators.
  - The `save` overrides.
  - The store, a `Database` class holding the journey, order and ticket tables. Its methods update them in place. It keeps an invariant, `StoreValid`, that every stored row once passed its validator.
- `Serializers` (`serializers.dfy`): `train_station/serializers.py`.
  - The request-side validators.
  - `OrderSerializer.create`, as a loop over `Database.SaveTicket` with rollback.
- `Views` (`views.dfy`): `train_station/views.py`.
  - The `get_queryset` methods.
  - `_params_to_ints`.
  - Order creation for the requesting user.

Times are whole seconds since the epoch, in UTC. A date filter compares
`t / 86400`, the day number. Decimal coordinates are integers in
ten-thousandths of a degree. That is exact for `DecimalField(max_digits=7,
decimal_places=4)`. An absent query parameter is the empty string: Python's
`if param:` treats `None` and `""` alike.

## Model

| member | source | states |
|---|---|---|
| Text.ParseInt | train_station/views.py:198-199 | `int(s)` succeeds exactly on a numeral: an optional `+` or `-`, then at least one ASCII digit. Anything else raises `ValueError`. Digits read as their decimal value, `+` keeps it and `-` negates it |
| Text.ShowInt | train_station/models.py:204-208 | `str(n)` is non-empty and starts with `-` exactly when `n` is negative |
| Text.ParseShowInt | train_station/models.py:204-208 | reading back a bound written into an error message gives the same integer |
| Text.Split | train_station/views.py:187 | `qs.split(",")` yields at least one piece, and no piece contains the separator |
| Text.JoinSplit | train_station/views.py:187 | joining the pieces of a split restores the string |
| Text.SplitJoin | train_station/views.py:187 | splitting a join of separator-free pieces restores the pieces |
| Sorting.Filter | train_station/views.py:198-221 | `filter` keeps exactly the rows satisfying the condition, never more of them than there were |
| Sorting.FilterCount | train_station/views.py:231-235 | each row satisfying the condition is kept as often as it occurs, and every other row is dropped; `Count("tickets")` relies on this |
| Sorting.FilterAppend | train_station/views.py:231-235 | filtering distributes over concatenation, which lets a ticket count be split before and after a booking |
| Sorting.SortBy | train_station/views.py:236 | `order_by` returns a permutation of its input that is ordered by the key |
| Sorting.Dedup | train_station/views.py:238 | `distinct()` keeps the same rows, each exactly once |
| Sorting.DistinctPermutation | train_station/views.py:236-238 | reordering distinct rows keeps them distinct |
| Models.FullName | train_station/models.py:18-20 | the full name is the first name, one space, then the last name |
| Models.FullNameSplits | train_station/models.py:18-20 | when neither name has a space, splitting the full name on spaces gives both names back |
| Models.Route.Save | train_station/models.py:69-76 | save overwrites `distance` with the haversine distance of the source and destination coordinates, whatever it was before |
| Models.SeatGridFacts | train_station/models.py:96-98 | a grid of `cars` cars by `seats` seats has `cars * seats` places: exactly those with car in `1..cars` and seat in `1..seats` |
| Models.Capacity | train_station/models.py:96-98 | for a train of non-negative dimensions, `capacity` is the number of its seats: placements with car in `1..cars` and seat in `1..seats_in_car` |
| Models.CapacityIsSeatCount | train_station/models.py:96-98 | for non-negative dimensions, `capacity` equals the number of placements `validate_ticket` accepts, and a placement is a seat exactly when the validator accepts it |
| Models.ValidateTime | train_station/models.py:125-138 | accepts exactly when arrival is strictly after departure; otherwise raises the given class with `arrival_time` and the fixed message |
| Models.RangeMessage | train_station/models.py:202-208 | the message starts with the field name, and the bound can be read back from its final parentheses |
| Models.FirstOutOfRange | train_station/models.py:196-209 | the loop raises exactly when some listed value lies outside `1..bound` |
| Models.ValidateTicket | train_station/models.py:189-209 | accepts exactly when car and seat lie inside the train; a bad car is reported first, under `car`; otherwise a bad seat is reported under `seat`; each message carries its bound |
| Models.FindJourney | train_station/models.py:178-182 | the journey foreign key resolves to a stored journey with that id, and fails exactly when no journey has the id |
| Models.CheckTicket | train_station/models.py:211-229 | `full_clean` accepts a ticket exactly when its journey exists, its place is in range and no stored ticket has the same (journey, car, seat). Each refusal has its own reason: a missing journey as such, an out-of-range place with `validate_ticket`'s error (car before seat, with its bound), and a valid ticket on a taken key as `SeatTaken`, which is reported exactly for a taken key |
| Models.Database.SaveJourney | train_station/models.py:140-157 | `full_clean` before insert: a journey is stored under the next key exactly when arrival is after departure; a refused one leaves the table unchanged; the store stays valid |
| Models.Database.CreateOrderRow | train_station/models.py:160-166 | inserts an order for the user under a fresh key, with `created_at` taken from the clock |
| Models.Database.SaveTicket | train_station/models.py:219-229 | the outcome is `CheckTicket` on the current table; only an accepted ticket is appended; the store stays valid |
| Models.Database.Rollback | train_station/serializers.py:229 | leaving the atomic block on an error restores the order and ticket tables saved at its start |
| Models.UniqueSeats | train_station/models.py:236-237 | the `unique_together` key of the ticket table: no two tickets share a (journey, car, seat) |
| Models.StoreValid | train_station/models.py:140-157 | what `full_clean` before each insert guarantees of the tables: unique keys, every journey arriving after it departs, every ticket in range on an existing journey, and no two tickets on one seat |
| Models.StoredRowsAreClean | train_station/models.py:140-157 | every stored journey arrives after it departs, and every stored ticket lies inside its journey's train |
| Models.BookedWithinSeats | train_station/models.py:236-237 | the unique key plus the range check bound a journey's tickets by its train's seat count |
| Models.OrderedTickets | train_station/models.py:238 | default ticket ordering: a permutation, ordered by car, then by seat |
| Models.OrderedOrders | train_station/models.py:171-172 | default order ordering: a permutation, newest `created_at` first |
| Serializers.ValidateJourneyRequest | train_station/serializers.py:116-123 | the request is accepted exactly when arrival is after departure, and its data comes back unchanged; a refusal is a REST framework error on `arrival_time` |
| Serializers.JourneyPathsAgree | train_station/serializers.py:116-123 | the request path and `Journey.clean` accept the same times and report the same field and message |
| Serializers.ValidateTicketRequest | train_station/serializers.py:168-176 | accepts exactly the in-range placements of the journey's train, reporting `car` before `seat` |
| Serializers.TicketPathsAgree | train_station/serializers.py:168-176 | the request path and `Ticket.clean` reject the same placements, with the same field and message |
| Serializers.ValidateTicketItem | train_station/serializers.py:167-176 | a ticket item passes exactly when its journey key resolves and its placement is in range |
| Serializers.ValidateOrderRequest | train_station/serializers.py:221-222 | an order request passes exactly when its ticket list is non-empty and every item passes; an empty list is its own error; otherwise there is one error slot per item, and at least one is filled |
| Serializers.NewTickets | train_station/serializers.py:232-233 | one ticket per requested item |
| Serializers.NewTicketsAt | train_station/serializers.py:232-233 | ticket `k` of the new order carries item `k`'s journey, car and seat, and the new order's key |
| Serializers.FirstBookingFailure | train_station/serializers.py:228-234 | when the ticket loop stops, it names the position of an item of the request |
| Serializers.BookingSucceedsIff | train_station/serializers.py:228-234 | every ticket of an order can be created exactly when each item is placeable, none takes a seat already sold, and no two items of the request take the same seat |
| Serializers.DuplicateSeatFails | train_station/models.py:236-237 | two items of one order on the same seat make the booking fail |
| Serializers.PlaceableFailsOnlyOnConflict | train_station/serializers.py:168-176 | after request validation, the only reason a booking can still fail is a seat already taken |
| Serializers.CreateOrder | train_station/serializers.py:228-234 | atomic: on the first refused ticket, neither the order nor any of its tickets stays, and the failure names that item and the reason; otherwise the new order and exactly one ticket per item are appended; the store stays valid; one order key is used either way |
| Serializers.SaveItem | train_station/serializers.py:232-233 | one pass of the ticket loop: a refused ticket is where the booking first fails and leaves the ticket table as it was; an accepted one extends the order's tickets by the ticket for that item |
| Serializers.TakenSeats | train_station/serializers.py:202-206 | a journey's `taken_seats` are exactly its tickets, each as often as stored, ordered by car, then seat |
| Serializers.TicketsOfOrder | train_station/serializers.py:237-238 | an order's `tickets` are exactly the tickets linked to it, each as often as stored, ordered by car, then seat |
| Views.ParamsToInts | train_station/views.py:184-187 | one integer per comma-separated piece, in order; raises exactly when some piece is not an integer |
| Views.ParamsToIntsOfJoin | train_station/views.py:184-187 | a comma-joined list of ids reads back as the same list |
| Views.TrailingCommaRaises | train_station/views.py:184-187 | a trailing comma leaves an empty piece, and `int` raises on it |
| Views.ParseJourneyParams | train_station/views.py:192-219 | a route that is not an integer raises `ValueError` before anything else is read. With the route fine, a date that does not parse returns `None`. `ValueError` otherwise comes only from a train or crew id that is not an integer. A query filters on `int(route)`, `int(train)`, the parsed days and the crew ids; an absent parameter, crew included, filters nothing |
| Views.GetJourneyQueryset | train_station/views.py:189-238 | raises, returns `None` or lists, in the order the parameters are read; lists exactly the matching journeys, each once, by ascending departure, each annotated with its free-seat count |
| Views.FilterJourneys | train_station/views.py:198-221 | the chained filters keep exactly the journeys matching every given parameter, including every listed crew member |
| Views.FilterByCrew | train_station/views.py:218-221 | one `crew__id` filter per listed id keeps the journeys whose crew has all of them |
| Views.Annotate | train_station/views.py:230-235 | each journey is paired with its `tickets_available` count |
| Views.ListRows | train_station/views.py:236-238 | the rows, each once, in ascending departure order |
| Views.TicketsAvailable | train_station/views.py:231-235 | `tickets_available` never exceeds the train's capacity, and equals it exactly when no ticket is on the journey |
| Views.AvailabilityWithinCapacity | train_station/views.py:231-235 | for a stored journey whose train has non-negative dimensions, `tickets_available` lies between 0 and the train's capacity |
| Views.AvailabilityAfterBooking | train_station/views.py:231-235 | a booked order lowers a journey's count by its number of items on that journey, and leaves other journeys' counts as they were |
| Views.TwoSeatsBookable | train_station/tests/test_journey_api.py:56-65 | on the sample 5x15 train, an order for car 1, seats 1 and 2, goes through |
| Views.TwoSeatsLeaveSeventyThree | train_station/tests/test_journey_api.py:56-65 | the sample train has 75 free seats, and 73 after that order |
| Views.RouteQueryset | train_station/views.py:95-110 | raises exactly when a given station id is not an integer; otherwise lists exactly the routes from the given origin to the given destination, and no row more often than stored |
| Views.TrainQueryset | train_station/views.py:136-147 | raises exactly when a given type id is not an integer; otherwise lists exactly the trains of that type |
| Views.OrderQueryset | train_station/views.py:262-273 | the requesting user's orders and only theirs, newest first |
| Views.PlaceOrder | train_station/views.py:281-282 | an invalid request is reported with its validation errors and writes nothing. A valid one goes through exactly when the ticket loop meets no refusal. The order is then owned by the requesting user, has a fresh key and gets one ticket per item. Otherwise the failure is the loop's first refusal, always a seat conflict, and nothing is written. An order key is used only once the request is valid |

## Left out

- The haversine formula (`train_station/models.py:32-50`) is floating-point trigonometry. `Models.Route.Save` takes it as a function parameter.
- `Route.validate_stations` is called at `train_station/serializers.py:45-49`, but `train_station/models.py` does not define it. `RouteSerializer.validate` is therefore not modelled.
- The route filter and the serializers name a route's first station `origin`; `train_station/models.py` names it `source`. `Views.RouteQueryset` filters on the first station. The model lists rows as if the field were found. With that field name, Django raises `FieldError` at three points:
  - `filter(origin__id=...)` (`train_station/views.py:101-102`), as soon as a numeric `origin` parameter is given;
  - `select_related("origin", ...)` (`train_station/views.py:108`);
  - `select_related("route__origin", ...)` (`train_station/views.py:224-228`);
  - `prefetch_related("tickets__journey__route__origin", ...)` in the order listing (`train_station/views.py:266-271`) raises `AttributeError` once a listed order has a ticket. Every stored order has one (`allow_empty=False`, `train_station/serializers.py:222`), so the source's order listing fails for any user who has booked. `Views.OrderQueryset` lists the user's orders instead.
- Journey and order listings model the `list` action only. Retrieval and the default `-departure_time` journey ordering are not modelled. Apart from the field-name errors above, `select_related` and `prefetch_related` are not modelled.
- Pagination, authentication, permissions, HTTP status codes and image uploads are not modelled. The `TicketViewSet` and the station, train type and crew CRUD endpoints are not modelled either.
- `datetime.strptime(_, "%Y-%m-%d")` is the parameter `parseDate`, which gives a day number or `None`. Time zones are not modelled; every time is UTC.
- Text.ParseInt: accepts an optional sign and ASCII digits only. Python's `int` also accepts surrounding whitespace, underscores between digits and non-ASCII digits. Such strings are rejected here.
- Serializers.ValidateJourneyRequest: covers creation and full update only. `JourneySerializer.validate` reads both `attrs["departure_time"]` and `attrs["arrival_time"]` (`train_station/serializers.py:118-121`). A partial update (PATCH) through `JourneyViewSet` that omits either time therefore raises `KeyError`, which surfaces as a server error. `JourneyAttrs` always holds both times, so that path is not modelled.
- Serializers.ValidateOrderRequest: REST framework also adds a unique-together check to each ticket item. A seat already sold is therefore refused at validation time by the real service. Here, that seat is refused inside the transaction, as `SeatTaken`, with the same final state.
- Concurrency is not modelled. Two requests racing for one seat are serialised: the model has one database and runs one request at a time.
- Updates to trains and journeys are not modelled, and neither re-checks existing tickets in the source:
  - editing a train after tickets exist;
  - a journey update through `JourneyViewSet`, a `ModelViewSet` (`train_station/views.py:177`), that moves a journey to a smaller train. `Journey.save` re-checks only the times (`train_station/models.py:140-145`, `154`).

  The model stores each journey's train with the journey and has no update operation. `Models.StoredRowsAreClean` and `Views.AvailabilityWithinCapacity` hold because no such update exists in the model; they would not survive one.
- Views.TicketsAvailable: uses unbounded integers. In the source, `tickets_available` is computed in SQL from two `IntegerField` columns (`train_station/models.py:88-89`, `train_station/views.py:231-235`). On a backend with 32-bit integer columns, such as PostgreSQL, `cars * seats_in_car` can overflow and the query then raises. Whether it can overflow depends on the database backend, which this source does not fix.
- Views.AvailabilityWithinCapacity: `cars` and `seats_in_car` are plain integer fields with no validator. The bound is proved only for trains with non-negative dimensions.
- Foreign keys other than a ticket's journey and order are plain integers: route, train type, user and crew. They are not checked against a table.
- Deletion and cascades are not modelled.
- A ticket whose journey does not exist is refused as `JourneyMissing` by `Models.CheckTicket`. In Django, `clean` would instead fail with an exception when it reads the train of the missing journey. On the order path, the request validators have already resolved every journey, so the difference cannot be observed there.
- A ticket refused inside `OrderSerializer.create` raises Django's `ValidationError`, which REST framework does not turn into a 400 response. The model gives the refusal as a `BookingFailure` and leaves the HTTP outcome out.

=== FILE: models.dfy ===
/**
 * The domain rules of `train_station/models.py`: derived values, the two
 * validators, the `save` overrides and the unique key on tickets, over a
 * store that holds the journey, order and ticket tables.
 */
module Models {
  import opened Results
  import Text
  import Sorting

  // ---------------------------------------------------------------- errors

  /** The exception class a validator is given as `error_to_raise`: Django's (model path) or REST framework's (request path). */
  datatype ErrorClass = ModelValidationError | RequestValidationError

  /** A raised validation error: its class and its one-entry error dictionary `{field: message}`. */
  datatype ValidationError = ValidationError(cls: ErrorClass, field: string, message: string)

  // ----------------------------------------------------------- crew members

  datatype CrewMember = CrewMember(id: int, firstName: string, lastName: string)

  /** `CrewMember.full_name`: first name, one space, last name. */
  function FullName(m: CrewMember): (s: string)
    ensures |s| == |m.firstName| + 1 + |m.lastName|
    ensures s[..|m.firstName|] == m.firstName && s[|m.firstName|] == ' '
    ensures s[|m.firstName| + 1..] == m.lastName
  {
    m.firstName + " " + m.lastName
  }

  /** When neither name contains a space, splitting the full name on spaces gives the two names back. */
  lemma FullNameSplits(m: CrewMember)
    requires ' ' !in m.firstName && ' ' !in m.lastName
    ensures Text.Split(FullName(m), ' ') == [m.firstName, m.lastName]
  {
    var parts := [m.firstName, m.lastName];
    assert Text.Join(parts[1..], ' ') == m.lastName;
    assert FullName(m) == Text.Join(parts, ' ');
    Text.SplitJoin(parts, ' ');
  }

  // -------------------------------------------------------- stations, routes

  /** Coordinates are in ten-thousandths of a degree, the exact value of a decimal field with four decimal places. */
  datatype Station = Station(id: int, name: string, latitude: int, longitude: int)

  /** A route row; its `distance` is derived from the two stations on every save. */
  class Route {
    var source: Station
    var destination: Station
    var distance: int

    constructor (source: Station, destination: Station, distance: int)
      ensures this.source == source && this.destination == destination && this.distance == distance
    {
      this.source := source;
      this.destination := destination;
      this.distance := distance;
    }

    /**
     * `Route.save`: overwrites `distance` with the great-circle distance of
     * the source and destination coordinates, whatever it held before. The
     * haversine computation is the parameter `haversine`.
     */
    method Save(haversine: (int, int, int, int) -> int)
      modifies this`distance
      ensures distance == haversine(source.latitude, source.longitude, destination.latitude, destination.longitude)
    {
      distance := haversine(source.latitude, source.longitude, destination.latitude, destination.longitude);
    }
  }

  // ------------------------------------------------------------------ trains

  datatype Train = Train(id: int, name: string, cars: int, seatsInCar: int, trainTypeId: int)

  /** `Train.capacity`: for a train of non-negative dimensions, the number of its seats. */
  function Capacity(t: Train): (c: int)
    ensures 0 <= t.cars && 0 <= t.seatsInCar ==> c == |Seats(t)|
  {
    if 0 <= t.cars && 0 <= t.seatsInCar then
      SeatGridSize(t.cars, t.seatsInCar);
      CarByCarIsProduct(t.cars, t.seatsInCar);
      t.cars * t.seatsInCar
    else
      t.cars * t.seatsInCar
  }

  /** Seats `1..seats` of car `car`. */
  function CarSeats(car: int, seats: nat): set<(int, int)> {
    if seats == 0 then {} else CarSeats(car, seats - 1) + {(car, seats)}
  }

  /** Every (car, seat) with car in `1..cars` and seat in `1..seats`. */
  function SeatGrid(cars: nat, seats: nat): set<(int, int)> {
    if cars == 0 then {} else SeatGrid(cars - 1, seats) + CarSeats(cars, seats)
  }

  lemma {:induction false} CarSeatsFacts(car: int, seats: nat)
    ensures |CarSeats(car, seats)| == seats
    ensures forall p :: p in CarSeats(car, seats) <==> p.0 == car && 1 <= p.1 <= seats
  {
    if seats > 0 {
      CarSeatsFacts(car, seats - 1);
    }
  }

  lemma {:induction false} SeatGridMembers(cars: nat, seats: nat)
    ensures forall p :: p in SeatGrid(cars, seats) <==> 1 <= p.0 <= cars && 1 <= p.1 <= seats
  {
    if cars > 0 {
      SeatGridMembers(cars - 1, seats);
      CarSeatsFacts(cars, seats);
    }
  }

  /** `cars * seats`, counted car by car. */
  function CarByCar(cars: nat, seats: nat): nat {
    if cars == 0 then 0 else CarByCar(cars - 1, seats) + seats
  }

  lemma {:induction false} CarByCarIsProduct(cars: nat, seats: nat)
    ensures CarByCar(cars, seats) == cars * seats
  {
    if cars > 0 {
      CarByCarIsProduct(cars - 1, seats);
      assert (cars - 1) * seats + seats == cars * seats;
    }
  }

  lemma {:induction false} SeatGridSize(cars: nat, seats: nat)
    ensures |SeatGrid(cars, seats)| == CarByCar(cars, seats)
  {
    if cars > 0 {
      var before, row := SeatGrid(cars - 1, seats), CarSeats(cars, seats);
      assert SeatGrid(cars, seats) == before + row;
      assert |before| == CarByCar(cars - 1, seats) by {
        SeatGridSize(cars - 1, seats);
      }
      assert |row| == seats && before !! row by {
        SeatGridMembers(cars - 1, seats);
        CarSeatsFacts(cars, seats);
      }
      assert |before + row| == |before| + |row|;
    }
  }

  /** The grid of `cars` cars with `seats` seats each: its members, and as many of them as the product. */
  lemma SeatGridFacts(cars: nat, seats: nat)
    ensures |SeatGrid(cars, seats)| == cars * seats
    ensures forall p :: p in SeatGrid(cars, seats) <==> 1 <= p.0 <= cars && 1 <= p.1 <= seats
  {
    SeatGridSize(cars, seats);
    CarByCarIsProduct(cars, seats);
    SeatGridMembers(cars, seats);
  }

  function Clamp(n: int): nat {
    if n < 0 then 0 else n
  }

  /** The physical seats of a train: the placements a ticket may take. */
  function Seats(t: Train): set<(int, int)> {
    SeatGrid(Clamp(t.cars), Clamp(t.seatsInCar))
  }

  /**
   * Capacity counts exactly the placements `validate_ticket` accepts, for a
   * train whose dimensions are not negative.
   */
  lemma CapacityIsSeatCount(t: Train)
    requires 0 <= t.cars && 0 <= t.seatsInCar
    ensures |Seats(t)| == Capacity(t)
    ensures forall car, seat :: (car, seat) in Seats(t) <==> ValidateTicket(car, seat, t, ModelValidationError).None?
  {
    SeatGridFacts(t.cars, t.seatsInCar);
  }

  // ---------------------------------------------------------------- journeys

  /** Times are seconds since the epoch; crew members are referenced by id. */
  datatype Journey = Journey(id: int, routeId: int, train: Train, departureTime: int, arrivalTime: int, crew: set<int>)

  const ArrivalMessage := "arrival time must not be earlier than departure time"

  /** `Journey.validate_time`: raises `cls`, keyed `arrival_time`, unless arrival is strictly after departure. */
  function ValidateTime(departure: int, arrival: int, cls: ErrorClass): (r: Option<ValidationError>)
    ensures r.None? <==> departure < arrival
    ensures r.Some? ==> r.value == ValidationError(cls, "arrival_time", ArrivalMessage)
  {
    if arrival <= departure then Some(ValidationError(cls, "arrival_time", ArrivalMessage)) else None
  }

  // ----------------------------------------------------------------- tickets

  /** One entry of the list `validate_ticket` walks: a ticket value, its field name, and the train attribute bounding it. */
  datatype RangeCheck = RangeCheck(value: int, field: string, trainAttr: string, bound: int)

  function CarCheck(car: int, t: Train): RangeCheck {
    RangeCheck(car, "car", "cars", t.cars)
  }

  function SeatCheck(seat: int, t: Train): RangeCheck {
    RangeCheck(seat, "seat", "seats_in_car", t.seatsInCar)
  }

  /** The message of an out-of-range value: it begins with the field name and ends with the bound, in parentheses. */
  function RangeMessage(c: RangeCheck): (m: string)
    ensures |m| > |c.field| && m[..|c.field|] == c.field
    ensures var n := |Text.ShowInt(c.bound)|; |m| > n && Text.ParseInt(m[|m| - 1 - n..|m| - 1]) == Some(c.bound)
  {
    var m := c.field + " number must be in available range: (1, " + c.trainAttr + "): (1, " + Text.ShowInt(c.bound) + ")";
    Text.ParseShowInt(c.bound);
    assert m[|m| - 1 - |Text.ShowInt(c.bound)|..|m| - 1] == Text.ShowInt(c.bound);
    m
  }

  /** The loop of `validate_ticket`: the first check whose value is outside `1..bound` raises. */
  function FirstOutOfRange(checks: seq<RangeCheck>, cls: ErrorClass): (r: Option<ValidationError>)
    ensures r.None? <==> forall k :: 0 <= k < |checks| ==> 1 <= checks[k].value <= checks[k].bound
  {
    if checks == [] then None
    else if !(1 <= checks[0].value <= checks[0].bound) then
      Some(ValidationError(cls, checks[0].field, RangeMessage(checks[0])))
    else
      var r := FirstOutOfRange(checks[1..], cls);
      assert forall k :: 1 <= k < |checks| ==> checks[k] == checks[1..][k - 1];
      r
  }

  /**
   * `Ticket.validate_ticket`: accepts exactly the placements inside the
   * train; `car` is checked first, so a ticket out of range on both reports
   * `car`, and the message carries that field's upper bound.
   */
  function ValidateTicket(car: int, seat: int, train: Train, cls: ErrorClass): (r: Option<ValidationError>)
    ensures r.None? <==> 1 <= car <= train.cars && 1 <= seat <= train.seatsInCar
    ensures r.Some? && !(1 <= car <= train.cars) ==>
      r.value == ValidationError(cls, "car", RangeMessage(CarCheck(car, train)))
    ensures r.Some? && 1 <= car <= train.cars ==>
      r.value == ValidationError(cls, "seat", RangeMessage(SeatCheck(seat, train)))
  {
    var checks := [CarCheck(car, train), SeatCheck(seat, train)];
    assert checks[0].value == car && checks[0].bound == train.cars;
    assert checks[1].value == seat && checks[1].bound == train.seatsInCar;
    assert checks[1..] == [SeatCheck(seat, train)];
    assert FirstOutOfRange(checks[1..][1..], cls) == None;
    assert !(1 <= seat <= train.seatsInCar) ==>
      FirstOutOfRange(checks[1..], cls) == Some(ValidationError(cls, "seat", RangeMessage(SeatCheck(seat, train))));
    FirstOutOfRange(checks, cls)
  }

  datatype Order = Order(id: int, user: int, createdAt: int)

  datatype Ticket = Ticket(journeyId: int, orderId: int, car: int, seat: int)

  /** The columns of the unique key `("journey", "car", "seat")`. */
  function SeatKey(t: Ticket): (int, int, int) {
    (t.journeyId, t.car, t.seat)
  }

  function SeatKeys(tickets: seq<Ticket>): set<(int, int, int)> {
    set t | t in tickets :: SeatKey(t)
  }

  /** Why `Ticket.save` refuses a row. */
  datatype TicketError = JourneyMissing | OutOfRange(error: ValidationError) | SeatTaken

  // ------------------------------------------------------------------ tables

  function FindJourney(journeys: seq<Journey>, id: int): (r: Option<Journey>)
    ensures r.Some? ==> r.value in journeys && r.value.id == id
    ensures r.None? <==> forall j :: j in journeys ==> j.id != id
  {
    if journeys == [] then None
    else if journeys[0].id == id then Some(journeys[0])
    else
      var r := FindJourney(journeys[1..], id);
      assert forall j :: j in journeys ==> j == journeys[0] || j in journeys[1..];
      r
  }

  function OrderIds(orders: seq<Order>): set<int> {
    set o | o in orders :: o.id
  }

  /**
   * The checks `full_clean` makes when `Ticket.save` runs: the journey must
   * exist, `clean` runs `validate_ticket` against the journey's train, and
   * only a ticket whose fields passed is checked against the unique key.
   */
  function CheckTicket(journeys: seq<Journey>, tickets: seq<Ticket>, t: Ticket): (r: Option<TicketError>)
    ensures r.None? <==>
      && FindJourney(journeys, t.journeyId).Some?
      && ValidateTicket(t.car, t.seat, FindJourney(journeys, t.journeyId).value.train, ModelValidationError).None?
      && forall u :: u in tickets ==> SeatKey(u) != SeatKey(t)
    ensures FindJourney(journeys, t.journeyId).None? ==> r == Some(JourneyMissing)
    ensures FindJourney(journeys, t.journeyId).Some? ==>
      var range := ValidateTicket(t.car, t.seat, FindJourney(journeys, t.journeyId).value.train, ModelValidationError);
      range.Some? ==> r == Some(OutOfRange(range.value))
    ensures r == Some(SeatTaken) ==> SeatKey(t) in SeatKeys(tickets)
    ensures (&& FindJourney(journeys, t.journeyId).Some?
             && ValidateTicket(t.car, t.seat, FindJourney(journeys, t.journeyId).value.train, ModelValidationError).None?
             && SeatKey(t) in SeatKeys(tickets)) ==> r == Some(SeatTaken)
  {
    match FindJourney(journeys, t.journeyId)
    case None => Some(JourneyMissing)
    case Some(j) =>
      match ValidateTicket(t.car, t.seat, j.train, ModelValidationError)
      case Some(e) => Some(OutOfRange(e))
      case None => if SeatKey(t) in SeatKeys(tickets) then Some(SeatTaken) else None
  }

  ghost predicate UniqueJourneyIds(journeys: seq<Journey>) {
    forall i, k :: 0 <= i < k < |journeys| ==> journeys[i].id != journeys[k].id
  }

  ghost predicate UniqueOrderIds(orders: seq<Order>) {
    forall i, k :: 0 <= i < k < |orders| ==> orders[i].id != orders[k].id
  }

  /** The unique key of the ticket table: no two tickets claim one seat of one journey. */
  ghost predicate UniqueSeats(tickets: seq<Ticket>) {
    forall i, k :: 0 <= i < k < |tickets| ==> SeatKey(tickets[i]) != SeatKey(tickets[k])
  }

  ghost predicate JourneyStored(j: Journey, nextJourneyId: int) {
    j.id < nextJourneyId && ValidateTime(j.departureTime, j.arrivalTime, ModelValidationError).None?
  }

  ghost predicate TicketStored(journeys: seq<Journey>, orders: seq<Order>, t: Ticket) {
    && t.orderId in OrderIds(orders)
    && FindJourney(journeys, t.journeyId).Some?
    && ValidateTicket(t.car, t.seat, FindJourney(journeys, t.journeyId).value.train, ModelValidationError).None?
  }

  /** What the store guarantees of the rows it holds. */
  ghost predicate StoreValid(journeys: seq<Journey>, orders: seq<Order>, tickets: seq<Ticket>,
                             nextJourneyId: int, nextOrderId: int) {
    && UniqueJourneyIds(journeys)
    && (forall j :: j in journeys ==> JourneyStored(j, nextJourneyId))
    && UniqueOrderIds(orders)
    && (forall o :: o in orders ==> o.id < nextOrderId)
    && (forall t :: t in tickets ==> TicketStored(journeys, orders, t))
    && UniqueSeats(tickets)
  }

  lemma {:induction false} FindJourneyAppend(journeys: seq<Journey>, j: Journey, id: int)
    ensures FindJourney(journeys + [j], id) ==
      if FindJourney(journeys, id).Some? then FindJourney(journeys, id)
      else if j.id == id then Some(j) else None
  {
    if journeys != [] {
      assert (journeys + [j])[1..] == journeys[1..] + [j];
      FindJourneyAppend(journeys[1..], j, id);
    }
  }

  /** Inserting a clean journey under the next key keeps the store valid. */
  lemma JourneyAddedKeepsStore(journeys: seq<Journey>, orders: seq<Order>, tickets: seq<Ticket>,
                               nextJourneyId: int, nextOrderId: int, j: Journey)
    requires StoreValid(journeys, orders, tickets, nextJourneyId, nextOrderId)
    requires j.id == nextJourneyId && ValidateTime(j.departureTime, j.arrivalTime, ModelValidationError).None?
    ensures StoreValid(journeys + [j], orders, tickets, nextJourneyId + 1, nextOrderId)
  {
    var js := journeys + [j];
    forall t | t in tickets ensures TicketStored(js, orders, t) {
      assert TicketStored(journeys, orders, t);
      FindJourneyAppend(journeys, j, t.journeyId);
    }
    forall i, k | 0 <= i < k < |js| ensures js[i].id != js[k].id {
      if k == |journeys| {
        assert journeys[i] in journeys;
      }
    }
    forall x | x in js ensures JourneyStored(x, nextJourneyId + 1) {
      if x != j {
        assert x in journeys;
      }
    }
  }

  /** The database tables the booking core reads and writes. */
  class Database {
    var journeys: seq<Journey>
    var orders: seq<Order>
    var tickets: seq<Ticket>
    var nextJourneyId: int
    var nextOrderId: int

    ghost predicate Valid()
      reads this
    {
      StoreValid(journeys, orders, tickets, nextJourneyId, nextOrderId)
    }

    constructor ()
      ensures Valid() && journeys == [] && orders == [] && tickets == []
    {
      journeys, orders, tickets := [], [], [];
      nextJourneyId, nextOrderId := 1, 1;
    }

    /**
     * `Journey.save` of a new journey: `full_clean` runs `clean`, which
     * raises unless arrival is after departure; only a clean row is inserted,
     * under the next primary key.
     */
    method SaveJourney(routeId: int, train: Train, departure: int, arrival: int, crew: set<int>)
      returns (r: Result<Journey, ValidationError>)
      requires Valid()
      modifies this`journeys, this`nextJourneyId
      ensures Valid()
      ensures r.Success? <==> departure < arrival
      ensures r.Failure? ==> Some(r.error) == ValidateTime(departure, arrival, ModelValidationError)
      ensures r.Failure? ==> journeys == old(journeys) && nextJourneyId == old(nextJourneyId)
      ensures r.Success? ==> nextJourneyId == old(nextJourneyId) + 1
      ensures r.Success? ==> r.value == Journey(old(nextJourneyId), routeId, train, departure, arrival, crew)
      ensures r.Success? ==> journeys == old(journeys) + [r.value]
    {
      var err := ValidateTime(departure, arrival, ModelValidationError);
      if err.Some? {
        return Failure(err.value);
      }
      var j := Journey(nextJourneyId, routeId, train, departure, arrival, crew);
      JourneyAddedKeepsStore(journeys, orders, tickets, nextJourneyId, nextOrderId, j);
      journeys := journeys + [j];
      nextJourneyId := nextJourneyId + 1;
      r := Success(j);
    }

    /**
     * `Order.objects.create`: inserts an order for `user` under the next
     * primary key, with `created_at` set to the clock reading `now`.
     */
    method CreateOrderRow(user: int, now: int) returns (o: Order)
      requires Valid()
      modifies this`orders, this`nextOrderId
      ensures Valid()
      ensures o == Order(old(nextOrderId), user, now) && o.id !in OrderIds(old(orders))
      ensures orders == old(orders) + [o] && nextOrderId == old(nextOrderId) + 1
    {
      o := Order(nextOrderId, user, now);
      orders := orders + [o];
      nextOrderId := nextOrderId + 1;
    }

    /**
     * `Ticket.save`: `full_clean` then insert. A ticket that fails any
     * check of `CheckTicket` leaves the table as it was.
     */
    method SaveTicket(t: Ticket) returns (err: Option<TicketError>)
      requires Valid() && t.orderId in OrderIds(orders)
      modifies this`tickets
      ensures Valid()
      ensures err == CheckTicket(journeys, old(tickets), t)
      ensures tickets == if err.None? then old(tickets) + [t] else old(tickets)
    {
      err := CheckTicket(journeys, tickets, t);
      if err.None? {
        tickets := tickets + [t];
      }
    }

    /**
     * The abort of a `transaction.atomic()` block: the order and ticket
     * tables return to what they held when it began. As a modelling choice,
     * primary keys handed out inside the block are not reused, as with a
     * database sequence; SQLite's `AUTOINCREMENT` counter would roll back too.
     */
    method Rollback(savedOrders: seq<Order>, savedTickets: seq<Ticket>)
      requires StoreValid(journeys, savedOrders, savedTickets, nextJourneyId, nextOrderId)
      modifies this`orders, this`tickets
      ensures Valid() && orders == savedOrders && tickets == savedTickets
    {
      orders, tickets := savedOrders, savedTickets;
    }
  }

  /** Every stored journey and ticket passes the validator its `save` ran. */
  lemma StoredRowsAreClean(journeys: seq<Journey>, orders: seq<Order>, tickets: seq<Ticket>,
                           nextJourneyId: int, nextOrderId: int)
    requires StoreValid(journeys, orders, tickets, nextJourneyId, nextOrderId)
    ensures forall j :: j in journeys ==> j.departureTime < j.arrivalTime
    ensures forall t :: t in tickets ==>
      exists j :: j in journeys && j.id == t.journeyId && 1 <= t.car <= j.train.cars && 1 <= t.seat <= j.train.seatsInCar
  {
    forall t | t in tickets
      ensures exists j :: j in journeys && j.id == t.journeyId && 1 <= t.car <= j.train.cars && 1 <= t.seat <= j.train.seatsInCar
    {
      assert TicketStored(journeys, orders, t);
      var j := FindJourney(journeys, t.journeyId).value;
      assert j in journeys && j.id == t.journeyId;
    }
  }

  lemma FindStoredJourney(journeys: seq<Journey>, j: Journey)
    requires UniqueJourneyIds(journeys) && j in journeys
    ensures FindJourney(journeys, j.id) == Some(j)
  {
    var r := FindJourney(journeys, j.id);
    var i :| 0 <= i < |journeys| && journeys[i] == j;
    var k :| 0 <= k < |journeys| && journeys[k] == r.value;
  }

  // ------------------------------------------------------------ occupancy

  function OnJourney(journeyId: int): Ticket -> bool {
    (t: Ticket) => t.journeyId == journeyId
  }

  /** The tickets booked on one journey: the rows `Count("tickets")` counts. */
  function TicketsOn(tickets: seq<Ticket>, journeyId: int): seq<Ticket> {
    Sorting.Filter(tickets, OnJourney(journeyId))
  }

  /** The placements taken on one journey. */
  ghost function PlacesOn(tickets: seq<Ticket>, journeyId: int): set<(int, int)> {
    set t | t in tickets && t.journeyId == journeyId :: (t.car, t.seat)
  }

  lemma UniqueSeatsTail(tickets: seq<Ticket>)
    requires UniqueSeats(tickets) && tickets != []
    ensures UniqueSeats(tickets[1..])
    ensures forall u :: u in tickets[1..] ==> SeatKey(u) != SeatKey(tickets[0])
  {
    var rest := tickets[1..];
    forall i, k | 0 <= i < k < |rest| ensures SeatKey(rest[i]) != SeatKey(rest[k]) {
      assert rest[i] == tickets[i + 1] && rest[k] == tickets[k + 1];
    }
    forall u | u in rest ensures SeatKey(u) != SeatKey(tickets[0]) {
      var k :| 0 <= k < |rest| && rest[k] == u;
      assert tickets[k + 1] == u;
    }
  }

  lemma PlacesOnCons(tickets: seq<Ticket>, journeyId: int)
    requires tickets != []
    ensures PlacesOn(tickets, journeyId) ==
      PlacesOn(tickets[1..], journeyId) + (if tickets[0].journeyId == journeyId then {(tickets[0].car, tickets[0].seat)} else {})
  {
    assert forall u :: u in tickets <==> u == tickets[0] || u in tickets[1..];
  }

  lemma {:induction false} CountIsPlaces(tickets: seq<Ticket>, journeyId: int)
    requires UniqueSeats(tickets)
    ensures |TicketsOn(tickets, journeyId)| == |PlacesOn(tickets, journeyId)|
  {
    if tickets != [] {
      var t, rest := tickets[0], tickets[1..];
      UniqueSeatsTail(tickets);
      CountIsPlaces(rest, journeyId);
      PlacesOnCons(tickets, journeyId);
      assert (t.car, t.seat) !in PlacesOn(rest, journeyId) || t.journeyId != journeyId;
    }
  }

  /**
   * Bounds plus the unique key: a stored journey never has more tickets than
   * its train has seats.
   */
  lemma BookedWithinSeats(journeys: seq<Journey>, orders: seq<Order>, tickets: seq<Ticket>,
                          nextJourneyId: int, nextOrderId: int, j: Journey)
    requires StoreValid(journeys, orders, tickets, nextJourneyId, nextOrderId)
    requires j in journeys
    ensures |TicketsOn(tickets, j.id)| <= |Seats(j.train)|
  {
    CountIsPlaces(tickets, j.id);
    FindStoredJourney(journeys, j);
    SeatGridFacts(Clamp(j.train.cars), Clamp(j.train.seatsInCar));
    var places, seats := PlacesOn(tickets, j.id), Seats(j.train);
    forall p | p in places ensures p in seats {
      var t :| t in tickets && t.journeyId == j.id && (t.car, t.seat) == p;
      assert TicketStored(journeys, orders, t);
    }
    assert seats == places + (seats - places);
  }

  // -------------------------------------------------------- default orderings

  /** `Ticket.Meta.ordering = ["car", "seat"]`. */
  predicate SeatOrder(a: Ticket, b: Ticket) {
    a.car < b.car || (a.car == b.car && a.seat <= b.seat)
  }

  /** `Order.Meta.ordering = ["-created_at"]`. */
  predicate NewestFirst(a: Order, b: Order) {
    a.createdAt >= b.createdAt
  }

  /** Tickets in their default order: a rearrangement sorted by car, then seat. */
  function OrderedTickets(tickets: seq<Ticket>): (r: seq<Ticket>)
    ensures multiset(r) == multiset(tickets)
    ensures forall i, k :: 0 <= i < k < |r| ==> r[i].car < r[k].car || (r[i].car == r[k].car && r[i].seat <= r[k].seat)
  {
    assert Sorting.TotalPreorder(SeatOrder);
    Sorting.SortBy(tickets, SeatOrder)
  }

  /** Orders in their default order: a rearrangement, newest first. */
  function OrderedOrders(orders: seq<Order>): (r: seq<Order>)
    ensures multiset(r) == multiset(orders)
    ensures forall i, k :: 0 <= i < k < |r| ==> r[i].createdAt >= r[k].createdAt
  {
    assert Sorting.TotalPreorder(NewestFirst);
    Sorting.SortBy(orders, NewestFirst)
  }
}

=== FILE: results.dfy ===
/** Optional values and success-or-error results, used for Python's `None` returns and raised exceptions. */
module Results {

  datatype Option<+T> = None | Some(value: T)

  datatype Result<+T, +E> = Success(value: T) | Failure(error: E)
}

=== FILE: serializers.dfy ===
/**
 * The request-side rules of `train_station/serializers.py`: the `validate`
 * hooks, which call the same model predicates as the `save` path, the
 * validation of an order's ticket list, and `OrderSerializer.create`, which
 * books an order and its tickets in one transaction.
 */
module Serializers {
  import opened Results
  import opened Models
  import Text
  import Sorting

  // ---------------------------------------------------------------- journeys

  /** The validated fields of a journey request. */
  datatype JourneyAttrs = JourneyAttrs(routeId: int, trainId: int, departureTime: int, arrivalTime: int, crew: set<int>)

  /** `JourneySerializer.validate`: `Journey.validate_time` with REST framework's error class; the data comes back unchanged. */
  function ValidateJourneyRequest(attrs: JourneyAttrs): (r: Result<JourneyAttrs, ValidationError>)
    ensures r.Success? <==> attrs.departureTime < attrs.arrivalTime
    ensures r.Success? ==> r.value == attrs
    ensures r.Failure? ==> r.error.cls == RequestValidationError && r.error.field == "arrival_time"
  {
    match ValidateTime(attrs.departureTime, attrs.arrivalTime, RequestValidationError)
    case None => Success(attrs)
    case Some(e) => Failure(e)
  }

  /**
   * The request path and `Journey.clean` agree: they accept the same time
   * pairs and report the same field and message, differing only in the
   * exception class.
   */
  lemma JourneyPathsAgree(attrs: JourneyAttrs)
    ensures ValidateJourneyRequest(attrs).Success? <==>
            ValidateTime(attrs.departureTime, attrs.arrivalTime, ModelValidationError).None?
    ensures ValidateJourneyRequest(attrs).Failure? ==>
      var e := ValidateTime(attrs.departureTime, attrs.arrivalTime, ModelValidationError).value;
      ValidateJourneyRequest(attrs).error == e.(cls := RequestValidationError)
  {
  }

  // ----------------------------------------------------------------- tickets

  /** The fields of one requested ticket; `journeyId` is the primary key the request names. */
  datatype TicketAttrs = TicketAttrs(car: int, seat: int, journeyId: int)

  /** `TicketSerializer.validate`, given the train of the ticket's journey: `Ticket.validate_ticket` with REST framework's error class. */
  function ValidateTicketRequest(attrs: TicketAttrs, train: Train): (r: Result<TicketAttrs, ValidationError>)
    ensures r.Success? <==> 1 <= attrs.car <= train.cars && 1 <= attrs.seat <= train.seatsInCar
    ensures r.Success? ==> r.value == attrs
    ensures r.Failure? ==> r.error.cls == RequestValidationError
    ensures r.Failure? ==> r.error.field == if 1 <= attrs.car <= train.cars then "seat" else "car"
  {
    match ValidateTicket(attrs.car, attrs.seat, train, RequestValidationError)
    case None => Success(attrs)
    case Some(e) => Failure(e)
  }

  /**
   * The request path and `Ticket.clean` agree: the same (car, seat, train)
   * triples are rejected, with the same field and message.
   */
  lemma TicketPathsAgree(attrs: TicketAttrs, train: Train)
    ensures ValidateTicketRequest(attrs, train).Success? <==>
            ValidateTicket(attrs.car, attrs.seat, train, ModelValidationError).None?
    ensures ValidateTicketRequest(attrs, train).Failure? ==>
      var e := ValidateTicket(attrs.car, attrs.seat, train, ModelValidationError).value;
      ValidateTicketRequest(attrs, train).error == e.(cls := RequestValidationError)
  {
  }

  /** The message REST framework gives a primary key that names no row. */
  function MissingJourneyMessage(id: int): string {
    "Invalid pk \"" + Text.ShowInt(id) + "\" - object does not exist."
  }

  /** One item of an order's `tickets` list: its journey key must resolve, then `TicketSerializer.validate` runs. */
  function ValidateTicketItem(journeys: seq<Journey>, item: TicketAttrs): (r: Option<ValidationError>)
    ensures r.None? <==>
      && FindJourney(journeys, item.journeyId).Some?
      && ValidateTicket(item.car, item.seat, FindJourney(journeys, item.journeyId).value.train, ModelValidationError).None?
    ensures r.Some? ==> r.value.cls == RequestValidationError
  {
    match FindJourney(journeys, item.journeyId)
    case None => Some(ValidationError(RequestValidationError, "journey", MissingJourneyMessage(item.journeyId)))
    case Some(j) =>
      match ValidateTicketRequest(item, j.train)
      case Success(_) => None
      case Failure(e) => Some(e)
  }

  /** Why an order request is refused before anything is written. */
  datatype OrderRequestError =
    | EmptyTickets                                    // `allow_empty=False`
    | TicketErrors(errors: seq<Option<ValidationError>>) // one entry per item, `None` where the item passed

  /**
   * Validation of an order request's `tickets` list: an empty list is
   * refused, and otherwise every item is validated and all of their errors
   * are reported together.
   */
  function ValidateOrderRequest(journeys: seq<Journey>, items: seq<TicketAttrs>): (r: Option<OrderRequestError>)
    ensures r.None? <==> 1 <= |items| && forall k :: 0 <= k < |items| ==> ValidateTicketItem(journeys, items[k]).None?
    ensures r == Some(EmptyTickets) <==> items == []
    ensures r.Some? && r.value.TicketErrors? ==>
      && |r.value.errors| == |items|
      && (forall k :: 0 <= k < |items| ==> r.value.errors[k] == ValidateTicketItem(journeys, items[k]))
      && (exists k :: 0 <= k < |items| && r.value.errors[k].Some?)
  {
    if items == [] then Some(EmptyTickets)
    else
      var errors := seq(|items|, k requires 0 <= k < |items| => ValidateTicketItem(journeys, items[k]));
      assert forall k :: 0 <= k < |items| ==> errors[k] == ValidateTicketItem(journeys, items[k]);
      if forall k :: 0 <= k < |errors| ==> errors[k].None? then None else Some(TicketErrors(errors))
  }

  // ----------------------------------------------------------------- booking

  /** The tickets an order for `items` inserts: one per item, in order, each linked to the order. */
  function NewTickets(items: seq<TicketAttrs>, orderId: int): (tickets: seq<Ticket>)
    ensures |tickets| == |items|
  {
    seq(|items|, k requires 0 <= k < |items| => Ticket(items[k].journeyId, orderId, items[k].car, items[k].seat))
  }

  /** Ticket `k` of a new order carries item `k`'s journey, car and seat, and the order's key. */
  lemma NewTicketsAt(items: seq<TicketAttrs>, orderId: int)
    ensures forall k :: 0 <= k < |items| ==>
      NewTickets(items, orderId)[k] == Ticket(items[k].journeyId, orderId, items[k].car, items[k].seat)
  {
  }

  lemma NewTicketsCons(items: seq<TicketAttrs>, orderId: int)
    requires items != []
    ensures NewTickets(items, orderId) ==
      [Ticket(items[0].journeyId, orderId, items[0].car, items[0].seat)] + NewTickets(items[1..], orderId)
  {
  }

  function ItemKey(item: TicketAttrs): (int, int, int) {
    (item.journeyId, item.car, item.seat)
  }

  /** The item that stopped a booking, by position in the request, and why `Ticket.save` refused it. */
  datatype BookingFailure = BookingFailure(item: nat, reason: TicketError)

  /**
   * Where inserting `items` one by one after `tickets` first fails, the
   * first of them being item number `offset` of the request; `None` when
   * every insert succeeds.
   */
  function FirstBookingFailure(journeys: seq<Journey>, tickets: seq<Ticket>, items: seq<TicketAttrs>,
                               orderId: int, offset: nat): (r: Option<BookingFailure>)
    ensures r.Some? ==> offset <= r.value.item < offset + |items|
    decreases |items|
  {
    if items == [] then None
    else
      var t := Ticket(items[0].journeyId, orderId, items[0].car, items[0].seat);
      match CheckTicket(journeys, tickets, t)
      case Some(e) => Some(BookingFailure(offset, e))
      case None => FirstBookingFailure(journeys, tickets + [t], items[1..], orderId, offset + 1)
  }

  /** An item whose journey exists and whose car and seat lie inside that journey's train. */
  predicate Placeable(journeys: seq<Journey>, item: TicketAttrs) {
    && FindJourney(journeys, item.journeyId).Some?
    && ValidateTicket(item.car, item.seat, FindJourney(journeys, item.journeyId).value.train, ModelValidationError).None?
  }

  /**
   * A booking goes through exactly when every item is placeable, no item
   * claims a seat already taken, and no two items claim the same seat.
   */
  lemma {:induction false} BookingSucceedsIff(journeys: seq<Journey>, tickets: seq<Ticket>, items: seq<TicketAttrs>,
                                              orderId: int, offset: nat)
    ensures FirstBookingFailure(journeys, tickets, items, orderId, offset).None? <==>
      && (forall k :: 0 <= k < |items| ==> Placeable(journeys, items[k]))
      && (forall k :: 0 <= k < |items| ==> ItemKey(items[k]) !in SeatKeys(tickets))
      && (forall i, k :: 0 <= i < k < |items| ==> ItemKey(items[i]) != ItemKey(items[k]))
    decreases |items|
  {
    if items != [] {
      var t := Ticket(items[0].journeyId, orderId, items[0].car, items[0].seat);
      var rest := items[1..];
      assert SeatKey(t) == ItemKey(items[0]);
      assert forall k :: 1 <= k < |items| ==> items[k] == rest[k - 1];
      BookingSucceedsIff(journeys, tickets + [t], rest, orderId, offset + 1);
      assert SeatKeys(tickets + [t]) == SeatKeys(tickets) + {SeatKey(t)};
      if CheckTicket(journeys, tickets, t).None? {
        assert ItemKey(items[0]) !in SeatKeys(tickets);
      } else {
        assert !Placeable(journeys, items[0]) || ItemKey(items[0]) in SeatKeys(tickets);
      }
    }
  }

  /** Two items of one request on the same seat make the whole booking fail. */
  lemma DuplicateSeatFails(journeys: seq<Journey>, tickets: seq<Ticket>, items: seq<TicketAttrs>, orderId: int, i: nat, k: nat)
    requires i < k < |items| && ItemKey(items[i]) == ItemKey(items[k])
    ensures FirstBookingFailure(journeys, tickets, items, orderId, 0).Some?
  {
    BookingSucceedsIff(journeys, tickets, items, orderId, 0);
  }

  /**
   * Once every item is placeable (what request validation checks), the only
   * way the booking can still fail is a seat conflict.
   */
  lemma {:induction false} PlaceableFailsOnlyOnConflict(journeys: seq<Journey>, tickets: seq<Ticket>, items: seq<TicketAttrs>,
                                                        orderId: int, offset: nat)
    requires forall k :: 0 <= k < |items| ==> Placeable(journeys, items[k])
    ensures FirstBookingFailure(journeys, tickets, items, orderId, offset).Some? ==>
            FirstBookingFailure(journeys, tickets, items, orderId, offset).value.reason == SeatTaken
    decreases |items|
  {
    if items != [] {
      var t := Ticket(items[0].journeyId, orderId, items[0].car, items[0].seat);
      assert Placeable(journeys, items[0]);
      assert forall k :: 1 <= k < |items| ==> items[k] == items[1..][k - 1];
      PlaceableFailsOnlyOnConflict(journeys, tickets + [t], items[1..], orderId, offset + 1);
    }
  }

  lemma StoreValidWithLaterKey(journeys: seq<Journey>, orders: seq<Order>, tickets: seq<Ticket>,
                               nextJourneyId: int, nextOrderId: int, laterOrderId: int)
    requires StoreValid(journeys, orders, tickets, nextJourneyId, nextOrderId) && nextOrderId <= laterOrderId
    ensures StoreValid(journeys, orders, tickets, nextJourneyId, laterOrderId)
  {
  }

  /**
   * `OrderSerializer.create`, all inside `transaction.atomic()`: create the
   * order row, then save one ticket per item in order. The first ticket
   * `Ticket.save` refuses aborts the transaction, so neither the order nor
   * any ticket of the call remains; otherwise exactly one ticket per item is
   * added after the existing ones, each linked to the new order.
   */
  method CreateOrder(db: Database, user: int, now: int, items: seq<TicketAttrs>) returns (r: Result<Order, BookingFailure>)
    requires db.Valid()
    modifies db
    ensures db.Valid() && db.journeys == old(db.journeys) && db.nextJourneyId == old(db.nextJourneyId)
    ensures db.nextOrderId == old(db.nextOrderId) + 1
    ensures r.Failure? <==> FirstBookingFailure(old(db.journeys), old(db.tickets), items, old(db.nextOrderId), 0).Some?
    ensures r.Failure? ==> Some(r.error) == FirstBookingFailure(old(db.journeys), old(db.tickets), items, old(db.nextOrderId), 0)
    ensures r.Failure? ==> db.orders == old(db.orders) && db.tickets == old(db.tickets)
    ensures r.Success? ==> r.value == Order(old(db.nextOrderId), user, now) && r.value.id !in OrderIds(old(db.orders))
    ensures r.Success? ==> db.orders == old(db.orders) + [r.value]
    ensures r.Success? ==> db.tickets == old(db.tickets) + NewTickets(items, r.value.id)
  {
    var savedOrders, savedTickets := db.orders, db.tickets;
    ghost var firstOrderId := db.nextOrderId;
    StoreValidWithLaterKey(db.journeys, savedOrders, savedTickets, db.nextJourneyId, firstOrderId, firstOrderId + 1);
    var order := db.CreateOrderRow(user, now);
    assert order.id in OrderIds(db.orders);
    var i := 0;
    while i < |items|
      invariant 0 <= i <= |items|
      invariant db.Valid() && db.journeys == old(db.journeys) && db.nextJourneyId == old(db.nextJourneyId)
      invariant order == Order(firstOrderId, user, now) && db.nextOrderId == firstOrderId + 1
      invariant db.orders == savedOrders + [order] && order.id in OrderIds(db.orders)
      invariant StoreValid(db.journeys, savedOrders, savedTickets, db.nextJourneyId, db.nextOrderId)
      invariant db.tickets == savedTickets + NewTickets(items[..i], order.id)
      invariant FirstBookingFailure(db.journeys, savedTickets, items, order.id, 0) ==
                FirstBookingFailure(db.journeys, db.tickets, items[i..], order.id, i)
    {
      var err := SaveItem(db, items, order.id, savedTickets, i);
      if err.Some? {
        db.Rollback(savedOrders, savedTickets);
        return Failure(BookingFailure(i, err.value));
      }
      i := i + 1;
    }
    assert items[..i] == items;
    r := Success(order);
  }

  /**
   * One pass of the ticket loop of `OrderSerializer.create`: `Ticket.save`
   * for item `i`. A refusal is where the booking first fails; an accepted
   * ticket extends the order's tickets by one.
   */
  method SaveItem(db: Database, items: seq<TicketAttrs>, orderId: int, savedTickets: seq<Ticket>, i: nat)
    returns (err: Option<TicketError>)
    requires i < |items| && db.Valid() && orderId in OrderIds(db.orders)
    requires db.tickets == savedTickets + NewTickets(items[..i], orderId)
    modifies db`tickets
    ensures db.Valid()
    ensures err.Some? ==>
      FirstBookingFailure(db.journeys, old(db.tickets), items[i..], orderId, i) == Some(BookingFailure(i, err.value))
    ensures err.Some? ==> db.tickets == old(db.tickets)
    ensures err.None? ==> db.tickets == savedTickets + NewTickets(items[..i + 1], orderId)
    ensures err.None? ==>
      FirstBookingFailure(db.journeys, old(db.tickets), items[i..], orderId, i) ==
      FirstBookingFailure(db.journeys, db.tickets, items[i + 1..], orderId, i + 1)
  {
    var t := Ticket(items[i].journeyId, orderId, items[i].car, items[i].seat);
    BookingStep(db.journeys, db.tickets, items, orderId, i);
    NewTicketsPrefix(items, orderId, i);
    ghost var before := NewTickets(items[..i], orderId);
    assert savedTickets + NewTickets(items[..i + 1], orderId) == savedTickets + before + [t];
    err := db.SaveTicket(t);
  }

  /** One more insert of the booking: the item at position `i` is checked against the tickets so far. */
  lemma BookingStep(journeys: seq<Journey>, tickets: seq<Ticket>, items: seq<TicketAttrs>, orderId: int, i: nat)
    requires i < |items|
    ensures var t := Ticket(items[i].journeyId, orderId, items[i].car, items[i].seat);
      FirstBookingFailure(journeys, tickets, items[i..], orderId, i) ==
        if CheckTicket(journeys, tickets, t).Some? then Some(BookingFailure(i, CheckTicket(journeys, tickets, t).value))
        else FirstBookingFailure(journeys, tickets + [t], items[i + 1..], orderId, i + 1)
  {
    assert items[i..][0] == items[i] && items[i..][1..] == items[i + 1..];
  }

  lemma NewTicketsPrefix(items: seq<TicketAttrs>, orderId: int, i: nat)
    requires i < |items|
    ensures NewTickets(items[..i + 1], orderId) ==
            NewTickets(items[..i], orderId) + [Ticket(items[i].journeyId, orderId, items[i].car, items[i].seat)]
  {
  }

  // ----------------------------------------------------------------- listing

  /** `taken_seats` of a journey's detail view: its tickets, by car and then seat. */
  function TakenSeats(tickets: seq<Ticket>, journeyId: int): (r: seq<Ticket>)
    ensures forall t :: t in r <==> t in tickets && t.journeyId == journeyId
    ensures multiset(r) == multiset(TicketsOn(tickets, journeyId))
    ensures forall i, k :: 0 <= i < k < |r| ==> r[i].car < r[k].car || (r[i].car == r[k].car && r[i].seat <= r[k].seat)
  {
    var mine := TicketsOn(tickets, journeyId);
    var r := OrderedTickets(mine);
    assert forall t :: t in r <==> t in multiset(r);
    assert forall t :: t in mine <==> t in multiset(mine);
    r
  }

  /** The `tickets` of an order in an order listing: its tickets, by car and then seat. */
  function TicketsOfOrder(tickets: seq<Ticket>, orderId: int): (r: seq<Ticket>)
    ensures forall t :: t in r <==> t in tickets && t.orderId == orderId
    ensures multiset(r) == multiset(Sorting.Filter(tickets, (t: Ticket) => t.orderId == orderId))
    ensures forall i, k :: 0 <= i < k < |r| ==> r[i].car < r[k].car || (r[i].car == r[k].car && r[i].seat <= r[k].seat)
  {
    var mine := Sorting.Filter(tickets, (t: Ticket) => t.orderId == orderId);
    var r := OrderedTickets(mine);
    assert forall t :: t in r <==> t in multiset(r);
    assert forall t :: t in mine <==> t in multiset(mine);
    r
  }
}

=== FILE: sorting.dfy ===
/**
 * The query-set operations the ORM performs for the booking core: `filter`,
 * `order_by` (and a model's default `Meta.ordering`) and `distinct`.
 */
module Sorting {

  /**
   * `queryset.filter(p)`: every row satisfying `p`, as often as it occurs,
   * and no other row. The model keeps the rows in their original order.
   */
  function Filter<T(!new)>(s: seq<T>, p: T -> bool): (r: seq<T>)
    ensures |r| <= |s|
    ensures forall x :: x in r <==> x in s && p(x)
    ensures multiset(r) <= multiset(s)
  {
    if s == [] then []
    else
      assert s == [s[0]] + s[1..];
      (if p(s[0]) then [s[0]] else []) + Filter(s[1..], p)
  }

  /** Each row satisfying `p` is kept as often as it occurs; every other row is dropped. */
  lemma {:induction false} FilterCount<T(!new)>(s: seq<T>, p: T -> bool)
    ensures forall x :: multiset(Filter(s, p))[x] == if p(x) then multiset(s)[x] else 0
  {
    if s != [] {
      FilterCount(s[1..], p);
      assert s == [s[0]] + s[1..];
      assert multiset(s) == multiset{s[0]} + multiset(s[1..]);
    }
  }

  lemma {:induction false} FilterAppend<T(!new)>(a: seq<T>, b: seq<T>, p: T -> bool)
    ensures Filter(a + b, p) == Filter(a, p) + Filter(b, p)
  {
    if a == [] {
      assert a + b == b;
    } else {
      assert (a + b)[1..] == a[1..] + b;
      FilterAppend(a[1..], b, p);
    }
  }

  /** `le` is a total preorder: every two rows compare, and comparison chains. */
  ghost predicate TotalPreorder<T(!new)>(le: (T, T) -> bool) {
    && (forall x, y :: le(x, y) || le(y, x))
    && (forall x, y, z :: le(x, y) && le(y, z) ==> le(x, z))
  }

  ghost predicate Sorted<T>(s: seq<T>, le: (T, T) -> bool) {
    forall i, j :: 0 <= i < j < |s| ==> le(s[i], s[j])
  }

  /** Places `x` before the first element it does not follow. */
  function Insert<T(!new)>(x: T, s: seq<T>, le: (T, T) -> bool): (r: seq<T>)
    requires TotalPreorder(le) && Sorted(s, le)
    ensures multiset(r) == multiset(s) + multiset{x}
    ensures Sorted(r, le)
  {
    if s == [] then [x]
    else if le(x, s[0]) then
      SortedCons(x, s, le);
      [x] + s
    else
      assert s == [s[0]] + s[1..];
      var rest := Insert(x, s[1..], le);
      forall y | y in rest ensures le(s[0], y) {
        assert y in multiset(rest);
      }
      SortedCons(s[0], rest, le);
      [s[0]] + rest
  }

  lemma SortedCons<T(!new)>(h: T, t: seq<T>, le: (T, T) -> bool)
    requires TotalPreorder(le) && Sorted(t, le)
    requires forall y :: y in t ==> le(h, y)
    ensures Sorted([h] + t, le)
  {
  }

  /** `queryset.order_by(...)`: the same rows, rearranged so that `le` holds between every earlier and later row. */
  function SortBy<T(!new)>(s: seq<T>, le: (T, T) -> bool): (r: seq<T>)
    requires TotalPreorder(le)
    ensures multiset(r) == multiset(s)
    ensures Sorted(r, le)
  {
    if s == [] then [] else
      assert s == [s[0]] + s[1..];
      Insert(s[0], SortBy(s[1..], le), le)
  }

  /** No row occurs twice. */
  ghost predicate Distinct<T>(s: seq<T>) {
    forall x :: x in multiset(s) ==> multiset(s)[x] == 1
  }

  /** `queryset.distinct()`: each row once, first occurrences kept in order. */
  function Dedup<T(==,!new)>(s: seq<T>): (r: seq<T>)
    ensures forall x :: x in r <==> x in s
    ensures Distinct(r)
  {
    if s == [] then []
    else
      var r := Dedup(s[..|s| - 1]);
      var x := s[|s| - 1];
      assert s == s[..|s| - 1] + [x];
      if x in r then r else r + [x]
  }

  /** A permutation of distinct rows is distinct. */
  lemma DistinctPermutation<T>(s: seq<T>, r: seq<T>)
    requires Distinct(s) && multiset(r) == multiset(s)
    ensures Distinct(r)
  {
  }
}

=== FILE: text.dfy ===
/**
 * The string handling the booking core relies on: Python's `int(str)` on
 * query parameters, `str(int)` inside error messages, and `str.split(",")`.
 */
module Text {
  import opened Results

  predicate IsDigit(c: char) {
    '0' <= c <= '9'
  }

  predicate AllDigits(s: string) {
    forall i :: 0 <= i < |s| ==> IsDigit(s[i])
  }

  function DigitChar(d: nat): (c: char)
    requires d < 10
    ensures IsDigit(c) && c as int - '0' as int == d
  {
    ('0' as int + d) as char
  }

  /** The value of a run of decimal digits, most significant digit first. */
  function DigitsValue(s: string): nat
    requires AllDigits(s)
  {
    if s == [] then 0 else DigitsValue(s[..|s| - 1]) * 10 + (s[|s| - 1] as int - '0' as int)
  }

  /** The decimal numeral of `n`, as `str(n)` writes a non-negative integer. */
  function ShowNat(n: nat): (s: string)
    ensures 1 <= |s| && AllDigits(s)
  {
    if n < 10 then [DigitChar(n)] else ShowNat(n / 10) + [DigitChar(n % 10)]
  }

  /** `str(n)` for any integer: a minus sign before the numeral of a negative number. */
  function ShowInt(n: int): (s: string)
    ensures 1 <= |s|
    ensures n < 0 <==> s[0] == '-'
  {
    if n < 0 then "-" + ShowNat(-n) else ShowNat(n)
  }

  /** A decimal numeral: an optional `+` or `-`, then at least one ASCII digit. */
  predicate Numeral(s: string) {
    || (s != [] && AllDigits(s))
    || (|s| >= 2 && (s[0] == '+' || s[0] == '-') && AllDigits(s[1..]))
  }

  /**
   * `int(s)` on the strings this model admits: an optional sign followed by
   * at least one ASCII digit. `None` stands for the `ValueError` Python raises.
   */
  function ParseInt(s: string): (r: Option<int>)
    ensures r.Some? <==> Numeral(s)
    ensures s != [] && AllDigits(s) ==> r == Some(DigitsValue(s))
    ensures |s| >= 2 && s[0] == '+' && AllDigits(s[1..]) ==> r == Some(DigitsValue(s[1..]))
    ensures |s| >= 2 && s[0] == '-' && AllDigits(s[1..]) ==> r == Some(-(DigitsValue(s[1..]) as int))
  {
    if s == [] then None
    else if s[0] == '-' || s[0] == '+' then
      var digits := s[1..];
      if digits != [] && AllDigits(digits) then
        var v: int := DigitsValue(digits);
        Some(if s[0] == '-' then -v else v)
      else None
    else if AllDigits(s) then Some(DigitsValue(s))
    else None
  }

  lemma {:induction false} DigitsValueOfShowNat(n: nat)
    ensures DigitsValue(ShowNat(n)) == n
  {
    var s := ShowNat(n);
    if n >= 10 {
      assert s[..|s| - 1] == ShowNat(n / 10);
      DigitsValueOfShowNat(n / 10);
    }
  }

  lemma ParseNegative(digits: string)
    requires digits != [] && AllDigits(digits)
    ensures ParseInt("-" + digits) == Some(-(DigitsValue(digits) as int))
  {
    var s := "-" + digits;
    assert s[0] == '-' && s[1..] == digits;
  }

  /** Reading back what `str` wrote gives the same integer. */
  lemma ParseShowInt(n: int)
    ensures ParseInt(ShowInt(n)) == Some(n)
  {
    if n < 0 {
      var d := ShowNat(-n);
      assert ShowInt(n) == "-" + d;
      assert DigitsValue(d) == -n by {
        DigitsValueOfShowNat(-n);
      }
      ParseNegative(d);
    } else {
      assert ShowInt(n) == ShowNat(n);
      DigitsValueOfShowNat(n);
    }
  }

  /** The position of the first `c` in `s`. */
  function FirstIndex(s: string, c: char): (i: nat)
    requires c in s
    ensures i < |s| && s[i] == c && c !in s[..i]
  {
    if s[0] == c then 0 else 1 + FirstIndex(s[1..], c)
  }

  lemma {:induction false} FirstIndexOfPrefix(s: string, c: char, k: nat)
    requires k < |s| && s[k] == c && c !in s[..k]
    ensures c in s && FirstIndex(s, c) == k
  {
    assert s[k] in s;
    if k > 0 {
      assert s[0] in s[..k];
      assert s[1..][..k - 1] == s[..k][1..];
      FirstIndexOfPrefix(s[1..], c, k - 1);
    }
  }

  /** `s.split(sep)`: the pieces between separators, empty pieces included; never an empty list. */
  function Split(s: string, sep: char): (parts: seq<string>)
    ensures 1 <= |parts|
    ensures forall k :: 0 <= k < |parts| ==> sep !in parts[k]
  {
    if sep in s then
      var i := FirstIndex(s, sep);
      [s[..i]] + Split(s[i + 1..], sep)
    else [s]
  }

  /** `sep.join(parts)`. */
  function Join(parts: seq<string>, sep: char): string
    requires 1 <= |parts|
  {
    if |parts| == 1 then parts[0] else parts[0] + [sep] + Join(parts[1..], sep)
  }

  lemma {:induction false} JoinSnoc(parts: seq<string>, last: string, sep: char)
    requires 1 <= |parts|
    ensures Join(parts + [last], sep) == Join(parts, sep) + [sep] + last
  {
    if |parts| > 1 {
      assert (parts + [last])[1..] == parts[1..] + [last];
      JoinSnoc(parts[1..], last, sep);
    }
  }

  /** Joining the pieces of a split restores the string. */
  lemma {:induction false} JoinSplit(s: string, sep: char)
    ensures Join(Split(s, sep), sep) == s
  {
    if sep in s {
      var i := FirstIndex(s, sep);
      var rest := Split(s[i + 1..], sep);
      var parts := Split(s, sep);
      assert parts == [s[..i]] + rest;
      assert parts[0] == s[..i] && parts[1..] == rest;
      assert Join(parts, sep) == s[..i] + [sep] + Join(rest, sep);
      JoinSplit(s[i + 1..], sep);
      assert s == s[..i] + [sep] + s[i + 1..];
    }
  }

  /** Splitting a join of separator-free pieces gives the pieces back. */
  lemma {:induction false} SplitJoin(parts: seq<string>, sep: char)
    requires 1 <= |parts|
    requires forall k :: 0 <= k < |parts| ==> sep !in parts[k]
    ensures Split(Join(parts, sep), sep) == parts
  {
    if |parts| > 1 {
      var s := Join(parts, sep);
      var p := parts[0];
      assert s[..|p|] == p;
      FirstIndexOfPrefix(s, sep, |p|);
      assert s[|p| + 1..] == Join(parts[1..], sep);
      SplitJoin(parts[1..], sep);
    }
  }
}

=== FILE: views.dfy ===
/**
 * The read and write paths of `train_station/views.py` that touch the
 * booking core: the journey listing with its filters and the
 * `tickets_available` annotation, the route, train and order listings, and
 * order creation on behalf of the requesting user.
 */
module Views {
  import opened Results
  import opened Models
  import Text
  import Sorting
  import Serializers

  /** What a `get_queryset` comes to: rows, `None` returned, or a `ValueError` raised out of `int`. */
  datatype Listing<T> = Listed(rows: seq<T>) | ReturnedNone | RaisedValueError

  // ------------------------------------------------------------ id parameters

  /** `int` of every piece of a list of strings; `None` when one of them is not an integer. */
  function ParseAll(pieces: seq<string>): (r: Option<seq<int>>)
    ensures r.Some? <==> forall k :: 0 <= k < |pieces| ==> Text.ParseInt(pieces[k]).Some?
    ensures r.Some? ==> |r.value| == |pieces| && forall k :: 0 <= k < |pieces| ==> Text.ParseInt(pieces[k]) == Some(r.value[k])
  {
    if pieces == [] then Some([])
    else
      var rest := ParseAll(pieces[1..]);
      assert forall k :: 1 <= k < |pieces| ==> pieces[k] == pieces[1..][k - 1];
      match Text.ParseInt(pieces[0])
      case None => None
      case Some(x) => if rest.None? then None else Some([x] + rest.value)
  }

  /**
   * `JourneyViewSet._params_to_ints`: the comma-separated pieces of `qs`, each
   * read by `int`, one integer per piece and in order; `None` stands for the
   * `ValueError` a piece that is not an integer (an empty one included) raises.
   */
  function ParamsToInts(qs: string): (r: Option<seq<int>>)
    ensures var pieces := Text.Split(qs, ',');
      && (r.Some? <==> forall k :: 0 <= k < |pieces| ==> Text.ParseInt(pieces[k]).Some?)
      && (r.Some? ==> |r.value| == |pieces| && forall k :: 0 <= k < |pieces| ==> Text.ParseInt(pieces[k]) == Some(r.value[k]))
  {
    var pieces := Text.Split(qs, ',');
    // Names the split in the form the postcondition's quantifiers mention.
    assert pieces == Text.Split(qs, ',');
    ParseAll(pieces)
  }

  /** The query string a client writes for a list of ids: `",".join(str(x) for x in xs)`. */
  function JoinInts(xs: seq<int>): string
    requires 1 <= |xs|
  {
    Text.Join(seq(|xs|, k requires 0 <= k < |xs| => Text.ShowInt(xs[k])), ',')
  }

  lemma NoCommaInNumeral(n: int)
    ensures ',' !in Text.ShowInt(n)
  {
    var s := Text.ShowInt(n);
    if n < 0 {
      assert s == "-" + Text.ShowNat(-n);
      assert forall k :: 1 <= k < |s| ==> Text.IsDigit(s[k]);
    }
  }

  /** Reading back a written list of ids gives the same ids, in the same order. */
  lemma ParamsToIntsOfJoin(xs: seq<int>)
    requires 1 <= |xs|
    ensures ParamsToInts(JoinInts(xs)) == Some(xs)
  {
    var parts := seq(|xs|, k requires 0 <= k < |xs| => Text.ShowInt(xs[k]));
    forall k | 0 <= k < |parts| ensures ',' !in parts[k] && Text.ParseInt(parts[k]) == Some(xs[k]) {
      NoCommaInNumeral(xs[k]);
      Text.ParseShowInt(xs[k]);
    }
    Text.SplitJoin(parts, ',');
    var r := ParamsToInts(JoinInts(xs));
    assert r.Some? && r.value == xs;
  }

  /** A trailing comma leaves an empty last piece, on which `int` raises. */
  lemma TrailingCommaRaises(xs: seq<int>)
    requires 1 <= |xs|
    ensures ParamsToInts(JoinInts(xs) + ",").None?
  {
    var s := JoinInts(xs);
    var parts := seq(|xs|, k requires 0 <= k < |xs| => Text.ShowInt(xs[k]));
    forall k | 0 <= k < |parts| ensures ',' !in parts[k] {
      NoCommaInNumeral(xs[k]);
    }
    Text.JoinSnoc(parts, "", ',');
    assert Text.Join(parts + [""], ',') == s + ",";
    Text.SplitJoin(parts + [""], ',');
    var pieces := Text.Split(s + ",", ',');
    assert pieces[|pieces| - 1] == "";
  }

  // ---------------------------------------------------------------- journeys

  /** The query parameters `JourneyViewSet.get_queryset` reads; an absent parameter is the empty string. */
  datatype JourneyParams = JourneyParams(route: string, departure: string, arrival: string, train: string, crew: string)

  /** The filters of a journey query once its parameters are read: days are counted from the epoch. */
  datatype JourneyQuery = JourneyQuery(route: Option<int>, departureDay: Option<int>, arrivalDay: Option<int>,
                                       train: Option<int>, crew: seq<int>)

  /** Reading the journey parameters: a query, a date that is not `%Y-%m-%d`, or an id that is not an integer. */
  datatype ParsedParams = Query(query: JourneyQuery) | MalformedDate | NotAnInteger

  const SecondsPerDay := 86400

  /** The UTC calendar day of a time, as `__date` compares it. */
  function DayOf(t: int): int {
    t / SecondsPerDay
  }

  /**
   * The parameters in the order `get_queryset` reads them: a bad route id
   * raises before the dates are looked at, a bad date returns `None` before
   * the train and crew ids are looked at. `parseDate` is `strptime(_, "%Y-%m-%d")`
   * as a day number.
   */
  function ParseJourneyParams(p: JourneyParams, parseDate: string -> Option<int>): (r: ParsedParams)
    ensures r.NotAnInteger? ==>
      || (p.route != "" && !Text.Numeral(p.route))
      || (p.train != "" && !Text.Numeral(p.train))
      || (p.crew != "" && ParamsToInts(p.crew).None?)
    ensures r.MalformedDate? ==>
      (p.departure != "" && parseDate(p.departure).None?) || (p.arrival != "" && parseDate(p.arrival).None?)
    ensures r.Query? ==>
      && (r.query.route.None? <==> p.route == "")
      && (r.query.departureDay.None? <==> p.departure == "")
      && (r.query.arrivalDay.None? <==> p.arrival == "")
      && (r.query.train.None? <==> p.train == "")
      && (p.crew != "" ==> Some(r.query.crew) == ParamsToInts(p.crew))
      && (p.crew == "" ==> r.query.crew == [])
    ensures r.Query? ==>
      && (p.route != "" ==> r.query.route == Text.ParseInt(p.route))
      && (p.departure != "" ==> r.query.departureDay == parseDate(p.departure))
      && (p.arrival != "" ==> r.query.arrivalDay == parseDate(p.arrival))
      && (p.train != "" ==> r.query.train == Text.ParseInt(p.train))
    ensures p.route != "" && !Text.Numeral(p.route) ==> r.NotAnInteger?
    ensures (p.route == "" || Text.Numeral(p.route)) &&
            ((p.departure != "" && parseDate(p.departure).None?) || (p.arrival != "" && parseDate(p.arrival).None?))
            ==> r.MalformedDate?
  {
    if p.route != "" && Text.ParseInt(p.route).None? then NotAnInteger
    else if p.departure != "" && parseDate(p.departure).None? then MalformedDate
    else if p.arrival != "" && parseDate(p.arrival).None? then MalformedDate
    else if p.train != "" && Text.ParseInt(p.train).None? then NotAnInteger
    else if p.crew != "" && ParamsToInts(p.crew).None? then NotAnInteger
    else Query(JourneyQuery(
      if p.route == "" then None else Text.ParseInt(p.route),
      if p.departure == "" then None else parseDate(p.departure),
      if p.arrival == "" then None else parseDate(p.arrival),
      if p.train == "" then None else Text.ParseInt(p.train),
      if p.crew == "" then [] else ParamsToInts(p.crew).value))
  }

  /** A journey passes every filter of `q`, and has every listed crew member on board. */
  predicate Matches(j: Journey, q: JourneyQuery) {
    && (q.route.Some? ==> j.routeId == q.route.value)
    && (q.departureDay.Some? ==> DayOf(j.departureTime) == q.departureDay.value)
    && (q.arrivalDay.Some? ==> DayOf(j.arrivalTime) == q.arrivalDay.value)
    && (q.train.Some? ==> j.train.id == q.train.value)
    && (forall k :: 0 <= k < |q.crew| ==> q.crew[k] in j.crew)
  }

  /** The `tickets_available` annotation: `cars * seats_in_car` of the journey's train less its tickets. */
  function TicketsAvailable(j: Journey, tickets: seq<Ticket>): (a: int)
    ensures a <= Capacity(j.train)
    ensures a == Capacity(j.train) <==> forall t :: t in tickets ==> t.journeyId != j.id
  {
    var on := TicketsOn(tickets, j.id);
    assert on != [] ==> on[0] in on;
    Capacity(j.train) - |on|
  }

  /** A row of the journey listing: the journey with its annotation. */
  datatype JourneyRow = JourneyRow(journey: Journey, ticketsAvailable: int)

  predicate DepartsNoLater(a: JourneyRow, b: JourneyRow) {
    a.journey.departureTime <= b.journey.departureTime
  }

  /**
   * `JourneyViewSet.get_queryset` for the list action: the filters in the
   * source's order, one `crew__id` filter per listed crew member, then the
   * `tickets_available` annotation, `order_by("departure_time")` and
   * `distinct()`. Lists exactly the matching journeys, each once, earliest
   * departure first, each with its free-seat count.
   */
  method GetJourneyQueryset(journeys: seq<Journey>, tickets: seq<Ticket>, p: JourneyParams,
                            parseDate: string -> Option<int>) returns (r: Listing<JourneyRow>)
    ensures r.RaisedValueError? <==> ParseJourneyParams(p, parseDate).NotAnInteger?
    ensures r.ReturnedNone? <==> ParseJourneyParams(p, parseDate).MalformedDate?
    ensures r.Listed? ==> ParseJourneyParams(p, parseDate).Query?
    ensures r.Listed? ==>
      var q := ParseJourneyParams(p, parseDate).query;
      forall row :: row in r.rows <==>
        row.journey in journeys && Matches(row.journey, q) && row.ticketsAvailable == TicketsAvailable(row.journey, tickets)
    ensures r.Listed? ==> Sorting.Distinct(r.rows)
    ensures r.Listed? ==> forall i, k :: 0 <= i < k < |r.rows| ==>
      r.rows[i].journey.departureTime <= r.rows[k].journey.departureTime
  {
    var route: Option<int> := None;
    if p.route != "" {
      route := Text.ParseInt(p.route);
      if route.None? {
        return RaisedValueError;
      }
    }
    var departureDay: Option<int> := None;
    if p.departure != "" {
      departureDay := parseDate(p.departure);
      if departureDay.None? {
        return ReturnedNone;
      }
    }
    var arrivalDay: Option<int> := None;
    if p.arrival != "" {
      arrivalDay := parseDate(p.arrival);
      if arrivalDay.None? {
        return ReturnedNone;
      }
    }
    var train: Option<int> := None;
    if p.train != "" {
      train := Text.ParseInt(p.train);
      if train.None? {
        return RaisedValueError;
      }
    }
    var crewIds: seq<int> := [];
    if p.crew != "" {
      var parsed := ParamsToInts(p.crew);
      if parsed.None? {
        return RaisedValueError;
      }
      crewIds := parsed.value;
    }
    var q := JourneyQuery(route, departureDay, arrivalDay, train, crewIds);
    ParsedAs(p, parseDate, q);
    var queryset := FilterJourneys(journeys, q);
    var rows := ListRows(Annotate(queryset, tickets));
    RowsOfMatches(journeys, queryset, tickets, rows, q);
    r := Listed(rows);
  }

  /**
   * The `filter` calls of `get_queryset`, in the source's order: route,
   * departure day, arrival day, train, then one `crew__id` filter per listed
   * crew member. The result holds exactly the journeys that match `q`.
   */
  method FilterJourneys(journeys: seq<Journey>, q: JourneyQuery) returns (queryset: seq<Journey>)
    ensures forall j :: j in queryset <==> j in journeys && Matches(j, q)
  {
    queryset := journeys;
    ghost var applied := JourneyQuery(None, None, None, None, []);
    assert Selects(queryset, journeys, applied);
    if q.route.Some? {
      RouteNarrows(journeys, queryset, applied, q.route.value);
      queryset, applied := WithRoute(queryset, q.route.value), applied.(route := q.route);
    }
    if q.departureDay.Some? {
      DepartureNarrows(journeys, queryset, applied, q.departureDay.value);
      queryset, applied := DepartingOn(queryset, q.departureDay.value), applied.(departureDay := q.departureDay);
    }
    if q.arrivalDay.Some? {
      ArrivalNarrows(journeys, queryset, applied, q.arrivalDay.value);
      queryset, applied := ArrivingOn(queryset, q.arrivalDay.value), applied.(arrivalDay := q.arrivalDay);
    }
    if q.train.Some? {
      TrainNarrows(journeys, queryset, applied, q.train.value);
      queryset, applied := WithTrain(queryset, q.train.value), applied.(train := q.train);
    }
    ghost var byTrain := queryset;
    queryset := FilterByCrew(queryset, q.crew);
    CrewNarrows(journeys, byTrain, queryset, applied, q.crew);
    assert applied.(crew := q.crew) == q;
    assert Selects(queryset, journeys, q);
  }

  /** `queryset` holds exactly the journeys of `journeys` that match `q`. */
  ghost predicate Selects(queryset: seq<Journey>, journeys: seq<Journey>, q: JourneyQuery) {
    forall j :: j in queryset <==> j in journeys && Matches(j, q)
  }

  lemma RowsOfMatches(journeys: seq<Journey>, queryset: seq<Journey>, tickets: seq<Ticket>, rows: seq<JourneyRow>, q: JourneyQuery)
    requires forall j :: j in queryset <==> j in journeys && Matches(j, q)
    requires forall row :: row in rows <==> row.journey in queryset && row.ticketsAvailable == TicketsAvailable(row.journey, tickets)
    ensures forall row :: row in rows <==>
      row.journey in journeys && Matches(row.journey, q) && row.ticketsAvailable == TicketsAvailable(row.journey, tickets)
  {
  }

  lemma ParsedAs(p: JourneyParams, parseDate: string -> Option<int>, q: JourneyQuery)
    requires q.route == if p.route == "" then None else Text.ParseInt(p.route)
    requires q.departureDay == if p.departure == "" then None else parseDate(p.departure)
    requires q.arrivalDay == if p.arrival == "" then None else parseDate(p.arrival)
    requires q.train == if p.train == "" then None else Text.ParseInt(p.train)
    requires p.route != "" ==> q.route.Some?
    requires p.departure != "" ==> q.departureDay.Some?
    requires p.arrival != "" ==> q.arrivalDay.Some?
    requires p.train != "" ==> q.train.Some?
    requires p.crew != "" ==> ParamsToInts(p.crew).Some? && q.crew == ParamsToInts(p.crew).value
    requires p.crew == "" ==> q.crew == []
    ensures ParseJourneyParams(p, parseDate) == Query(q)
  {
  }

  lemma RouteNarrows(journeys: seq<Journey>, queryset: seq<Journey>, q: JourneyQuery, id: int)
    requires Selects(queryset, journeys, q) && q.route.None?
    ensures Selects(WithRoute(queryset, id), journeys, q.(route := Some(id)))
  {
  }

  lemma DepartureNarrows(journeys: seq<Journey>, queryset: seq<Journey>, q: JourneyQuery, day: int)
    requires Selects(queryset, journeys, q) && q.departureDay.None?
    ensures Selects(DepartingOn(queryset, day), journeys, q.(departureDay := Some(day)))
  {
  }

  lemma ArrivalNarrows(journeys: seq<Journey>, queryset: seq<Journey>, q: JourneyQuery, day: int)
    requires Selects(queryset, journeys, q) && q.arrivalDay.None?
    ensures Selects(ArrivingOn(queryset, day), journeys, q.(arrivalDay := Some(day)))
  {
  }

  lemma TrainNarrows(journeys: seq<Journey>, queryset: seq<Journey>, q: JourneyQuery, id: int)
    requires Selects(queryset, journeys, q) && q.train.None?
    ensures Selects(WithTrain(queryset, id), journeys, q.(train := Some(id)))
  {
  }

  lemma CrewNarrows(journeys: seq<Journey>, before: seq<Journey>, after: seq<Journey>, q: JourneyQuery, crewIds: seq<int>)
    requires Selects(before, journeys, q) && q.crew == []
    requires forall j :: j in after <==> j in before && forall k :: 0 <= k < |crewIds| ==> crewIds[k] in j.crew
    ensures Selects(after, journeys, q.(crew := crewIds))
  {
  }

  /** `filter(route__id=id)` */
  function WithRoute(queryset: seq<Journey>, id: int): (r: seq<Journey>)
    ensures forall j :: j in r <==> j in queryset && j.routeId == id
  {
    Sorting.Filter(queryset, (j: Journey) => j.routeId == id)
  }

  /** `filter(departure_time__date=day)` */
  function DepartingOn(queryset: seq<Journey>, day: int): (r: seq<Journey>)
    ensures forall j :: j in r <==> j in queryset && DayOf(j.departureTime) == day
  {
    Sorting.Filter(queryset, (j: Journey) => DayOf(j.departureTime) == day)
  }

  /** `filter(arrival_time__date=day)` */
  function ArrivingOn(queryset: seq<Journey>, day: int): (r: seq<Journey>)
    ensures forall j :: j in r <==> j in queryset && DayOf(j.arrivalTime) == day
  {
    Sorting.Filter(queryset, (j: Journey) => DayOf(j.arrivalTime) == day)
  }

  /** `filter(train__id=id)` */
  function WithTrain(queryset: seq<Journey>, id: int): (r: seq<Journey>)
    ensures forall j :: j in r <==> j in queryset && j.train.id == id
  {
    Sorting.Filter(queryset, (j: Journey) => j.train.id == id)
  }

  /** `filter(crew__id=id)` */
  function WithCrewMember(queryset: seq<Journey>, id: int): (r: seq<Journey>)
    ensures forall j :: j in r <==> j in queryset && id in j.crew
  {
    Sorting.Filter(queryset, (j: Journey) => id in j.crew)
  }

  /** One `filter(crew__id=...)` per listed crew member: the journeys that have all of them on board. */
  method FilterByCrew(queryset: seq<Journey>, crewIds: seq<int>) returns (r: seq<Journey>)
    ensures forall j :: j in r <==> j in queryset && forall k :: 0 <= k < |crewIds| ==> crewIds[k] in j.crew
  {
    r := queryset;
    var i := 0;
    while i < |crewIds|
      invariant 0 <= i <= |crewIds|
      invariant forall j :: j in r <==> j in queryset && forall k :: 0 <= k < i ==> crewIds[k] in j.crew
    {
      var id := crewIds[i];
      r := WithCrewMember(r, id);
      i := i + 1;
    }
  }

  /** `annotate(tickets_available=...)`: each journey paired with its free-seat count. */
  function Annotate(queryset: seq<Journey>, tickets: seq<Ticket>): (rows: seq<JourneyRow>)
    ensures forall row :: row in rows <==>
      row.journey in queryset && row.ticketsAvailable == TicketsAvailable(row.journey, tickets)
  {
    if queryset == [] then []
    else
      var rest := Annotate(queryset[1..], tickets);
      assert forall j :: j in queryset <==> j == queryset[0] || j in queryset[1..];
      [JourneyRow(queryset[0], TicketsAvailable(queryset[0], tickets))] + rest
  }

  /** `order_by("departure_time")` and `distinct()`: the same rows, each once, earliest departure first. */
  function ListRows(annotated: seq<JourneyRow>): (rows: seq<JourneyRow>)
    ensures forall row :: row in rows <==> row in annotated
    ensures Sorting.Distinct(rows)
    ensures forall i, k :: 0 <= i < k < |rows| ==> rows[i].journey.departureTime <= rows[k].journey.departureTime
  {
    var unique := Sorting.Dedup(annotated);
    assert Sorting.TotalPreorder(DepartsNoLater);
    var rows := Sorting.SortBy(unique, DepartsNoLater);
    Sorting.DistinctPermutation(unique, rows);
    assert forall row :: row in rows <==> row in multiset(rows);
    assert forall row :: row in unique <==> row in multiset(unique);
    rows
  }

  /** Every stored journey has between none and all of its seats free. */
  lemma AvailabilityWithinCapacity(journeys: seq<Journey>, orders: seq<Order>, tickets: seq<Ticket>,
                                   nextJourneyId: int, nextOrderId: int, j: Journey)
    requires StoreValid(journeys, orders, tickets, nextJourneyId, nextOrderId)
    requires j in journeys && 0 <= j.train.cars && 0 <= j.train.seatsInCar
    ensures 0 <= TicketsAvailable(j, tickets) <= Capacity(j.train)
  {
    BookedWithinSeats(journeys, orders, tickets, nextJourneyId, nextOrderId, j);
    CapacityIsSeatCount(j.train);
  }

  function ItemsOn(items: seq<Serializers.TicketAttrs>, journeyId: int): seq<Serializers.TicketAttrs> {
    Sorting.Filter(items, (item: Serializers.TicketAttrs) => item.journeyId == journeyId)
  }

  lemma {:induction false} NewTicketsOn(items: seq<Serializers.TicketAttrs>, orderId: int, journeyId: int)
    ensures |TicketsOn(Serializers.NewTickets(items, orderId), journeyId)| == |ItemsOn(items, journeyId)|
  {
    if items != [] {
      var first := Ticket(items[0].journeyId, orderId, items[0].car, items[0].seat);
      var rest := Serializers.NewTickets(items[1..], orderId);
      var onItem := (item: Serializers.TicketAttrs) => item.journeyId == journeyId;
      Serializers.NewTicketsCons(items, orderId);
      Sorting.FilterAppend([first], rest, OnJourney(journeyId));
      assert items == [items[0]] + items[1..];
      Sorting.FilterAppend([items[0]], items[1..], onItem);
      NewTicketsOn(items[1..], orderId, journeyId);
      assert |Sorting.Filter([first], OnJourney(journeyId))| == |Sorting.Filter([items[0]], onItem)| by {
        assert [first][1..] == [] && [items[0]][1..] == [];
      }
    }
  }

  /** An order lowers a journey's free-seat count by the number of its items on that journey, and no other journey's. */
  lemma AvailabilityAfterBooking(j: Journey, tickets: seq<Ticket>, items: seq<Serializers.TicketAttrs>, orderId: int)
    ensures TicketsAvailable(j, tickets + Serializers.NewTickets(items, orderId)) ==
            TicketsAvailable(j, tickets) - |ItemsOn(items, j.id)|
    ensures (forall k :: 0 <= k < |items| ==> items[k].journeyId != j.id) ==>
            TicketsAvailable(j, tickets + Serializers.NewTickets(items, orderId)) == TicketsAvailable(j, tickets)
  {
    Sorting.FilterAppend(tickets, Serializers.NewTickets(items, orderId), OnJourney(j.id));
    NewTicketsOn(items, orderId, j.id);
    if forall k :: 0 <= k < |items| ==> items[k].journeyId != j.id {
      var on := ItemsOn(items, j.id);
      if on != [] {
        assert on[0] in on;
      }
    }
  }

  /** When every item is on one journey, keeping the items on that journey keeps them all. */
  lemma {:induction false} ItemsAllOn(items: seq<Serializers.TicketAttrs>, journeyId: int)
    requires forall k :: 0 <= k < |items| ==> items[k].journeyId == journeyId
    ensures ItemsOn(items, journeyId) == items
  {
    if items != [] {
      assert forall k :: 0 <= k < |items[1..]| ==> items[1..][k] == items[k + 1];
      ItemsAllOn(items[1..], journeyId);
      assert items == [items[0]] + items[1..];
    }
  }

  /** On a journey with no tickets yet, an order for car 1, seats 1 and 2, goes through. */
  lemma TwoSeatsBookable(j: Journey, orderId: int)
    requires j.train.cars == 5 && j.train.seatsInCar == 15
    ensures Serializers.FirstBookingFailure([j], [], TwoSeats(j.id), orderId, 0).None?
  {
    var items := TwoSeats(j.id);
    assert FindJourney([j], j.id) == Some(j);
    assert Serializers.Placeable([j], items[0]) && Serializers.Placeable([j], items[1]);
    assert SeatKeys([]) == {};
    Serializers.BookingSucceedsIff([j], [], items, orderId, 0);
  }

  /**
   * A journey on a train of 5 cars with 15 seats each has 75 seats; once
   * that order is booked, 73 of them are free.
   */
  lemma TwoSeatsLeaveSeventyThree(j: Journey, orderId: int)
    requires j.train.cars == 5 && j.train.seatsInCar == 15
    ensures TicketsAvailable(j, []) == 75
    ensures TicketsAvailable(j, [] + Serializers.NewTickets(TwoSeats(j.id), orderId)) == 73
  {
    var items := TwoSeats(j.id);
    assert Capacity(j.train) == 75;
    assert TicketsOn([], j.id) == [];
    ItemsAllOn(items, j.id);
    assert |ItemsOn(items, j.id)| == 2;
    AvailabilityAfterBooking(j, [], items, orderId);
  }

  function TwoSeats(journeyId: int): seq<Serializers.TicketAttrs> {
    [Serializers.TicketAttrs(1, 1, journeyId), Serializers.TicketAttrs(1, 2, journeyId)]
  }

  // ------------------------------------------------------- routes and trains

  /** A route as the listing filters it: its end stations by id. */
  datatype RouteRow = RouteRow(id: int, sourceId: int, destinationId: int, distance: int)

  /**
   * `RouteViewSet.get_queryset`: routes from the `origin` station and to the
   * `destination` station, when given; `int` raises on an id that is not an
   * integer.
   */
  function RouteQueryset(routes: seq<RouteRow>, origin: string, destination: string): (r: Listing<RouteRow>)
    ensures !r.ReturnedNone?
    ensures r.RaisedValueError? <==>
      (origin != "" && Text.ParseInt(origin).None?) || (destination != "" && Text.ParseInt(destination).None?)
    ensures r.Listed? ==> forall x :: x in r.rows <==>
      && x in routes
      && (origin != "" ==> x.sourceId == Text.ParseInt(origin).value)
      && (destination != "" ==> x.destinationId == Text.ParseInt(destination).value)
    ensures r.Listed? ==> multiset(r.rows) <= multiset(routes)
  {
    if origin != "" && Text.ParseInt(origin).None? then RaisedValueError
    else
      var from := if origin == "" then routes
        else var id := Text.ParseInt(origin).value; Sorting.Filter(routes, (x: RouteRow) => x.sourceId == id);
      if destination != "" && Text.ParseInt(destination).None? then RaisedValueError
      else
        var to := if destination == "" then from
          else var id := Text.ParseInt(destination).value; Sorting.Filter(from, (x: RouteRow) => x.destinationId == id);
        Listed(to)
  }

  /** `TrainViewSet.get_queryset`: the trains of the given `type`, when given; `int` raises on a type that is not an integer. */
  function TrainQueryset(trains: seq<Train>, trainType: string): (r: Listing<Train>)
    ensures !r.ReturnedNone?
    ensures r.RaisedValueError? <==> trainType != "" && Text.ParseInt(trainType).None?
    ensures r.Listed? ==> forall t :: t in r.rows <==>
      t in trains && (trainType != "" ==> t.trainTypeId == Text.ParseInt(trainType).value)
    ensures r.Listed? ==> multiset(r.rows) <= multiset(trains)
  {
    if trainType == "" then Listed(trains)
    else match Text.ParseInt(trainType)
      case None => RaisedValueError
      case Some(id) => Listed(Sorting.Filter(trains, (t: Train) => t.trainTypeId == id))
  }

  // ------------------------------------------------------------------ orders

  /** `OrderViewSet.get_queryset`: the requesting user's orders, newest first. */
  function OrderQueryset(orders: seq<Order>, user: int): (r: seq<Order>)
    ensures forall o :: o in r <==> o in orders && o.user == user
    ensures multiset(r) <= multiset(orders)
    ensures forall i, k :: 0 <= i < k < |r| ==> r[i].createdAt >= r[k].createdAt
  {
    var mine := Sorting.Filter(orders, (o: Order) => o.user == user);
    var r := OrderedOrders(mine);
    assert forall o :: o in r <==> o in multiset(r);
    assert forall o :: o in mine <==> o in multiset(mine);
    r
  }

  /** Why creating an order is refused. */
  datatype OrderFailure =
    | InvalidRequest(error: Serializers.OrderRequestError)
    | BookingFailed(failure: Serializers.BookingFailure)

  /**
   * Creating an order through `OrderViewSet`: the request is validated, then
   * `perform_create` saves it for the requesting user. A refused request
   * writes nothing; an accepted one can still fail only on a seat conflict,
   * and then writes nothing either; a booked order belongs to `user` and
   * carries one ticket per requested item.
   */
  method PlaceOrder(db: Database, user: int, now: int, items: seq<Serializers.TicketAttrs>)
    returns (r: Result<Order, OrderFailure>)
    requires db.Valid()
    modifies db
    ensures db.Valid() && db.journeys == old(db.journeys) && db.nextJourneyId == old(db.nextJourneyId)
    ensures db.nextOrderId ==
      old(db.nextOrderId) + (if Serializers.ValidateOrderRequest(old(db.journeys), items).Some? then 0 else 1)
    ensures r.Failure? ==> db.orders == old(db.orders) && db.tickets == old(db.tickets)
    ensures r.Failure? && r.error.InvalidRequest? ==>
      Serializers.ValidateOrderRequest(old(db.journeys), items) == Some(r.error.error)
    ensures r.Failure? && r.error.BookingFailed? ==> r.error.failure.reason == SeatTaken
    ensures Serializers.ValidateOrderRequest(old(db.journeys), items).Some? ==>
      r == Failure(InvalidRequest(Serializers.ValidateOrderRequest(old(db.journeys), items).value))
    ensures Serializers.ValidateOrderRequest(old(db.journeys), items).None? ==>
      (r.Success? <==> Serializers.FirstBookingFailure(old(db.journeys), old(db.tickets), items, old(db.nextOrderId), 0).None?)
    ensures r.Failure? && r.error.BookingFailed? ==>
      Some(r.error.failure) == Serializers.FirstBookingFailure(old(db.journeys), old(db.tickets), items, old(db.nextOrderId), 0)
    ensures r.Success? ==> Serializers.ValidateOrderRequest(old(db.journeys), items).None?
    ensures r.Success? ==> r.value.user == user && r.value.createdAt == now && 1 <= |items|
    ensures r.Success? ==> r.value.id !in OrderIds(old(db.orders))
    ensures r.Success? ==> db.orders == old(db.orders) + [r.value]
    ensures r.Success? ==> db.tickets == old(db.tickets) + Serializers.NewTickets(items, r.value.id)
  {
    var invalid := Serializers.ValidateOrderRequest(db.journeys, items);
    if invalid.Some? {
      return Failure(InvalidRequest(invalid.value));
    }
    forall k | 0 <= k < |items| ensures Serializers.Placeable(db.journeys, items[k]) {
      assert Serializers.ValidateTicketItem(db.journeys, items[k]).None?;
    }
    Serializers.PlaceableFailsOnlyOnConflict(db.journeys, db.tickets, items, db.nextOrderId, 0);
    var booked := Serializers.CreateOrder(db, user, now, items);
    match booked
    case Success(order) => r := Success(order);
    case Failure(failure) => r := Failure(BookingFailed(failure));
  }
}
